=== FILE: README.md ===
# chumpgame simulation model

A Dafny model of the gameplay simulation of chumpgame, a browser
top-down shooter. The player moves around a canvas and shoots bananas at
enemies that spawn in waves from the edges. Killed enemies may drop
power-ups: speed, fire rate or a heart. The game ends when the player's
health is gone.

The model covers the per-frame simulation that `src/game.js` runs on its
`game` record:
- the frame step and its clamp (`loop`);
- the gated update (`update`): pruning of dead enemies, movement of the
  player, bullets, enemies, power-ups and particles, the three collision
  phases, and the wave check;
- the wave spawner and the power-up drop policy;
- the lifecycle (`startGame`, `endGame`, `togglePause` and the
  start/pause button);
- the score-submission guard, the personal-best decision and the top-N
  step of the leaderboard.

It is built in two layers:

- **Values.** Each entity (bullet, enemy, power-up, particle, the player's
  state) is a datatype. Module `Sim` defines the whole record as a
  `World` value and each step of the game as a function of it (`Tick`,
  `Frame`, `StartGame`, `EndGame`, ...). The properties of the game are
  proved as lemmas about those functions.
- **Objects.** `Engine.Game` is a class with the fields of the `game`
  record, and `Players.Player` is a class with the player's fields. Their
  methods change the fields in place, the way the JavaScript does:
  - the reverse-index scans with `splice` and `break`;
  - the counted `spawnWave` loop;
  - the subtracting loop of `weightedPick`.

  Each method is proved to perform the corresponding step of the value
  model (`World() == Tick(old(World()), ...)`). `Update` and `Loop` are
  also proved to keep the invariant `Sim.Inv` and the player object, so
  frames compose: `Run` drives the animation loop over a sequence of
  timestamps and gives `Sim.Frames`.

Randomness, trigonometry and the canvas are parameters:
- `Env.spawns` and `Env.drops` are the random draws of a spawn and of a
  kill, indexed by enemy and by bullet; each frame of the animation loop
  has its own `Env`, so every frame draws afresh;
- `Env.steer` is the enemies' homing direction;
- `Input` carries the aim and movement vectors;
- `View` is the canvas size (client size for the playfield, backing-store
  size for the new player and the power-up floor).

Coordinates and timers are exact `real`s. Score, health, hit points and the
wave are unbounded integers.

The model follows the code as written, including its less obvious cases:
- contact damage can leave health below zero;
- enemies killed in an update stay in the array until the next update
  prunes them, so in the same pass they can be hit again (each such hit
  scores again) and can still hurt the player;
- the wave check at the end of the update still sees them;
- `endGame` leaves `paused` as it is.

## Model

| member | source | states |
|---|---|---|
| Geometry.Clamp | src/game.js:298 | the result is `max(lo, min(hi, v))`: `v` itself inside the bounds, the nearer bound outside, and the lower bound when the bounds are inverted |
| Geometry.Dist2 | src/game.js:299 | the squared distance is never negative and is zero for coinciding points |
| Geometry.TouchSymmetric | src/game.js:650-651 | the overlap test `dist2 <= (r1+r2)^2` is symmetric, and discs at the same centre always overlap |
| Entities.NewBullet | src/game.js:478 | defines a new bullet: 18 ahead of the shooter along the unit aim vector, moving at 520 along it, radius 4, life 1.2 s |
| Entities.BulletMoved | src/game.js:479 | defines a bullet's step: it moves by its velocity times dt and loses dt of life |
| Entities.BulletOff | src/game.js:480 | defines when a bullet is dropped: more than 10 outside the playfield on any side, or no life left |
| Entities.AdvanceBullets | src/game.js:479-480 | the bullet pass never grows the list |
| Entities.AdvanceBulletsSpec | src/game.js:732 | after the bullet pass, a bullet is in flight exactly when it is a moved old bullet that is not off the playfield |
| Entities.AdvanceEnemies | src/game.js:524 | the homing step keeps every enemy's hit points, radius, speed and dead mark, and the count |
| Entities.EnemyMoved | src/game.js:524 | defines an enemy's step: it moves `s*dt` along the homing direction toward the player, and a positive flash timer drops by dt |
| Entities.Survivors | src/game.js:732 | pruning never grows the enemy list |
| Entities.SurvivorsSpec | src/game.js:732 | after pruning, an enemy is present exactly when it was present and not marked dead |
| Entities.PowerUpMoved | src/game.js:581 | a power-up falls by `vy*dt`; once past the floor 20 above `canvas.height` it rests on the floor with `vy = 0`; a resting one stays put |
| Entities.AdvancePowerUps | src/game.js:581 | every power-up keeps its kind and x, and the count is unchanged |
| Entities.ParticleMoved | src/game.js:640 | defines a particle's step: it moves by its velocity times dt, the velocity keeps 98%, and life drops by dt |
| Entities.AdvanceParticles | src/game.js:640 | the particle pass never grows the list |
| Entities.AdvanceParticlesSpec | src/game.js:732 | a particle survives exactly when it is a moved old particle with life left |
| Players.FreshPlayer | src/game.js:351-357 | a new player is at full health (100) and satisfies the player invariant |
| Players.DecayBuff | src/game.js:362-363 | defines a buff's decay: a running timer drops by dt and the multiplier returns to 1 once the timer reaches 0 or below; a spent timer is left alone |
| Players.Fires | src/game.js:397 | defines when a shot leaves: fire is held and the cooldown, after this update's decrement, is at most 0 |
| Players.CurrentSpeed | src/game.js:387-388 | defines the move speed: base speed times the speed buff, times 1.15 on touch |
| Players.PlayerStep | src/game.js:360-403 | buff timers above 0 drop by dt, and a multiplier returns to 1 exactly when that drop takes its timer to 0 or below; the position moves by the direction times `CurrentSpeed` (with the speed multiplier after this update's decay) times dt, then is clamped into `[r, w-r] x [r, h-r]`, which keeps it inside when the playfield is big enough; `invT` decays only while positive; firing sets `reloadT = reload / fireRateMultiplier`, otherwise `reloadT` drops by dt; health is unchanged |
| Players.ShotFrom | src/game.js:396-402 | exactly one bullet is fired when fire is held and the decremented cooldown is at most 0, and none otherwise; it is the `NewBullet` at the player's moved position along the aim |
| Players.PlayerStepKeepsOk | src/game.js:360-403 | an update keeps health, radius, speed, reload and the buff multipliers consistent |
| Players.BuffedCadence | src/game.js:396-399 | under the fire-rate buff a shot sets the cooldown to `0.14 / 1.8`, and the next update of exactly that length fires again |
| Cooldown.Run | src/game.js:360-403 | a run of player updates keeps the player consistent |
| Cooldown.Quiet | src/game.js:396-397 | defines a run of updates in which no shot leaves |
| Cooldown.Sum | src/game.js:396 | defines the total length of a run of updates |
| Cooldown.SumNonNegative | src/game.js:396 | updates of non-negative length add up to a non-negative total |
| Cooldown.QuietWhileCooling | src/game.js:396-397 | while the updates add up to less than the cooldown left, none of them fires, and the cooldown drops by exactly their total |
| Cooldown.NoShotWithinCooldown | src/game.js:396-402 | after a shot, no run of later updates of non-negative lengths adding up to less than `reload / fireRateMultiplier` fires, whatever the inputs |
| Players.Player.constructor | src/game.js:351-357 | the new object's state is `FreshPlayer` |
| Players.Player.DecayBuffs | src/game.js:362-363 | each buff timer decays as `DecayBuff` says, and no other field changes |
| Players.Player.Update | src/game.js:360-403 | the in-place update produces `PlayerStep` of the old state and returns the bullet `ShotFrom` fires |
| Spawner.WaveEnemyCount | src/game.js:635 | `6 + floor(n*1.5)` equals `6 + (3n) div 2` |
| Spawner.EnemyHp | src/game.js:635 | `1 + floor(n/4)`, at least 1 |
| Spawner.EnemyRadius | src/game.js:635 | `clamp(12 - floor(n/4), 6, 12)` lies in [6, 12] and shrinks by one every four waves down to 6 |
| Spawner.SpawnEnemy | src/game.js:511-516 | a new enemy starts 20 outside one of the four edges |
| Spawner.NewWave | src/game.js:635 | wave n has exactly `6 + floor(1.5n)` enemies, each with the wave's hit points and radius, no flash, not dead, outside an edge, and speed `60 + 5n + 25*jitter`, which lies in `[60 + 5n, 85 + 5n)` for a jitter draw in [0, 1) |
| Drops.PickIndex | src/game.js:626-632 | the index chosen is the first one whose running weight sum reaches the target, or the last one |
| Drops.WeightedPick | src/game.js:626-632 | the subtracting loop returns the key of `PickIndex`, always one of the keys |
| Drops.ConfiguredPick | src/game.js:271 | with weights 1:1:1 and a draw in [0, 1), the thirds pick speed, fire rate and heart |
| Drops.PickReaches | src/game.js:629-631 | with a positive total weight and a draw in [0, 1), the fallback is never needed |
| Drops.DropFor | src/game.js:620-624 | at most one power-up is dropped, exactly when the roll is at most 0.10, placed at the kill with radius 10 and falling speed 28 |
| Collisions.LastHitBelow | src/game.js:649-651 | the scan result lies below its bound |
| Collisions.LastHit | src/game.js:649-651 | a hit found is a valid enemy index |
| Collisions.LastHitBelowSpec | src/game.js:649-651 | the scan finds a touched enemy with no touched enemy above it, or reports none exactly when none below the bound is touched |
| Collisions.LastHitSpec | src/game.js:649-652 | the inner scan stops at the highest-index touched enemy, and finds nothing exactly when the bullet touches no enemy |
| Collisions.MissesIsNoHit | src/game.js:649-652 | a bullet misses all enemies exactly when the scan finds none |
| Collisions.FindHit | src/game.js:649-652 | the reverse scan with `break` returns `LastHit` |
| Collisions.LastHitSamePlaces | src/game.js:650-651 | which enemy a bullet hits depends only on the enemies' places and radii, not on hp, flash or dead marks |
| Collisions.LastHitBelowSamePlaces | src/game.js:650-651 | the bounded scan depends only on places |
| Collisions.HitEffectTrans | src/game.js:651 | the allowed per-enemy change of a pass composes |
| Collisions.HitBullet | src/game.js:649-651 | defines one outer iteration: a bullet touching no enemy is kept; otherwise the last touched enemy loses 1 hp and flashes 0.2, and if that leaves it at or below 0 it is marked dead, the score rises by 10 and the drop roll is made |
| Collisions.HitPass | src/game.js:647-653 | defines the outer loop over bullets from the last to the first |
| Collisions.HitBulletTracks | src/game.js:647-653 | one bullet keeps every enemy's hit points equal to the original minus the bullets aimed at it so far |
| Collisions.HitBulletStep | src/game.js:651 | one bullet adds 10 points exactly when it scores; a scoring bullet appends exactly `DropFor` at the killed enemy's position with its own drop draw, any other bullet leaves the power-ups alone; enemies change only as allowed |
| Collisions.HitPassEnemies | src/game.js:647-653 | the outer loop leaves every enemy in place, takes one hit point per bullet aimed at it, and changes it only as allowed |
| Collisions.HitBulletKept | src/game.js:651 | a bullet is kept exactly when it touches no enemy |
| Collisions.UnhitOntoIsUnhit | src/game.js:647-651 | the bullets collected by the reverse loop are the missing bullets in their original order |
| Collisions.HitPassKept | src/game.js:647-651 | the outer loop keeps exactly the bullets that touch no enemy |
| Collisions.HitPassScore | src/game.js:651 | the outer loop adds 10 per scoring bullet, and only appends power-ups, at most one per scoring bullet |
| Collisions.AwardsWithinConsumed | src/game.js:651 | every scoring bullet was consumed |
| Collisions.BulletPhase | src/game.js:647-653 | defines the bullet-enemy phase: the outer loop over all bullets, starting from no kept bullets |
| Collisions.BulletPhaseEffect | src/game.js:647-653 | closed form of the bullet-enemy phase: kept bullets are exactly the ones touching no enemy, in order; each enemy keeps its place and loses one hp per bullet aimed at it; untouched enemies are unchanged; a hit enemy flashes 0.2 and is dead exactly when it was dead or is at or below 0; the score rises by 10 per scoring hit and by at most 10 per removed bullet; power-ups are only appended |
| Collisions.UnhitMembers | src/game.js:647-651 | a bullet survives the phase exactly when it touches no enemy |
| Collisions.DeadEnemyScoresAgain | src/game.js:651 | two bullets on an enemy with 1 hp in one pass both score: +20, and the enemy ends at -1, dead |
| Collisions.Hurt | src/game.js:658 | defines one contact: health drops by 15 and the grace timer is set to 0.8 s |
| Collisions.ContactPass | src/game.js:655-660 | defines the enemy-player loop from the last enemy to the first: a touching enemy hurts a vulnerable player, and health at or below 0 ends the game at once |
| Collisions.ContactWhileInvulnerable | src/game.js:658 | while `invT > 0` contacts change nothing |
| Collisions.ContactAtMostOnce | src/game.js:655-660 | the contact phase deals at most one damage event: -15 health and `invT = 0.8` exactly when some enemy touches a vulnerable player; the game ends exactly when that leaves health at or below 0 |
| Collisions.LethalContactGoesNegative | src/game.js:658 | health is not clamped: 10 health and one contact leave -5 and end the game |
| Collisions.Collect | src/game.js:667-669 | defines one pickup: a buff sets its multiplier and restarts its full timer; a heart heals 25, capped at 100 |
| Collisions.PickupPass | src/game.js:663-673 | defines the pickup loop from the last power-up to the first: a touched one is applied and removed, the others stay in order |
| Collisions.UncollectedSamePlace | src/game.js:665-666 | which power-ups are left untouched depends only on the player's position and radius |
| Collisions.UncollectedOntoIsUncollected | src/game.js:663-673 | the power-ups kept by the reverse loop are the untouched ones in order |
| Collisions.PickupPassKept | src/game.js:663-673 | the pickup loop keeps exactly the untouched power-ups and never moves the player |
| Collisions.BuffedStep | src/game.js:667-669 | collecting one more power-up is counted by its kind |
| Collisions.PickupPassPlayer | src/game.js:663-673 | the player after the pickup loop depends only on how many of each kind were touched |
| Collisions.PickupPhaseEffect | src/game.js:663-673 | untouched power-ups stay in order; a touched buff is set to 1.6 or 1.8 with its full 8 s timer (a refresh, not a stack); hearts heal 25 each capped at 100; a player at or below 100 stays there |
| Leaderboard.IsJsSpace | src/game.js:751 | defines the white space that `trim()` removes: the ECMAScript white-space and line-terminator characters |
| Leaderboard.Leading | src/game.js:751 | counts exactly the white space at the start |
| Leaderboard.Trailing | src/game.js:751 | the white space at the end lies exactly past the returned length |
| Leaderboard.Trim | src/game.js:751 | `trim()` is empty exactly for an all-white-space name; otherwise it starts and ends with a non-space |
| Leaderboard.LeadingOfPadded | src/game.js:751 | leading white space before a word is counted exactly |
| Leaderboard.TrailingOfPadded | src/game.js:751 | trailing white space after a word is cut exactly |
| Leaderboard.TrimPadded | src/game.js:751 | trimming recovers a name from any white-space padding |
| Leaderboard.TrimIdempotent | src/game.js:751 | trimming twice is trimming once |
| Leaderboard.MaySubmit | src/game.js:749-752 | defines when a score may be sent: not yet submitted, a non-empty trimmed name, and a positive score |
| Leaderboard.PersonalBest | src/game.js:704-717 | the new best is the larger of the final score and the stored best; the notice is "new best (was ...)" exactly when the final score is higher, "personal best" exactly when the stored best is positive and not beaten, blank otherwise |
| Leaderboard.PersonalBestSettles | src/game.js:704-707 | replaying the same final score keeps the best and announces no new record |
| Leaderboard.SortByScore | src/game.js:80 | the entries are sorted best first, as a permutation |
| Leaderboard.Insert | src/game.js:80 | one insertion step leaves the first i+1 entries sorted best first and a permutation of the old first i+1 entries, and the rest of the array untouched |
| Leaderboard.PrefixPermutedWhole | src/game.js:80 | permuting a prefix among itself, with the rest untouched, permutes the whole list |
| Leaderboard.LeftOut | src/game.js:81 | what a prefix leaves out of a list is exactly the rest of the list |
| Leaderboard.PrefixIsTop | src/game.js:81 | the prefix of a best-first list holds entries at least as good as everything after it |
| Leaderboard.TopScores | src/game.js:80-81 | sort then `splice(limit)`: best first, `min(limit, n)` entries taken from the input, and every entry left out scores no more than any entry kept |
| Sim.Initial | src/game.js:334-348 | the record at load time is consistent, stopped, never started, with no player |
| Sim.StartGame | src/game.js:678-682 | defines `startGame` on the record |
| Sim.StartGameFresh | src/game.js:678-682 | a new game: running, unpaused, score 0, wave 1, clock 0, empty bullets, power-ups and particles, exactly the 7 enemies of wave 1 (1 hp, radius 12), a fresh player, ready for one submission; best and name kept |
| Sim.EndGame | src/game.js:683-717 | defines the state part of `endGame` on the record |
| Sim.EndGameEffect | src/game.js:683-717 | the game stops, the submission is re-armed, and the best becomes the larger of the final score and the old best; score, wave and enemies stay |
| Sim.TogglePause | src/game.js:730 | defines `togglePause` on the record |
| Sim.TogglePauseEffect | src/game.js:730 | no-op unless running; otherwise flips `paused` only; toggling twice is the identity; consistency is kept |
| Sim.ActionButton | src/game.js:780 | defines the start/pause button on the record |
| Sim.ActionButtonEffect | src/game.js:780 | the button starts a game whenever none is running, and otherwise pauses or resumes |
| Sim.SubmitScore | src/game.js:746-769 | defines the submit handler: the new record and the submission it sends, if any |
| Sim.SubmitScoreEffect | src/game.js:746-769 | a score is sent exactly when not yet submitted, the trimmed name is non-empty and the score is positive, with the trimmed name, score and wave; the name is stored and the flag set; nothing changes otherwise |
| Sim.SubmitAtMostOnce | src/game.js:749-754 | after a submission, any further press sends nothing |
| Sim.Prune | src/game.js:732 | defines the pruning at the start of an update: enemies marked dead are removed |
| Sim.Move | src/game.js:732 | defines the movement part of an update: the player moves and may fire, then bullets (the new one included), enemies (toward the player's new position), power-ups and particles move |
| Sim.Shots | src/game.js:400 | an update adds at most one bullet |
| Sim.FrameDt | src/game.js:736 | the frame step is at most 0.033 s, 0 on the first frame, non-negative for increasing timestamps, and the exact elapsed time for short frames |
| Sim.Clock | src/game.js:736 | the clock bookkeeping changes only `lastTs` and `time`, and keeps the record consistent |
| Sim.TickIdle | src/game.js:732 | an update of a stopped or paused game changes nothing |
| Sim.MoveEffect | src/game.js:732 | the movement part keeps the player consistent and its health, adds at most one bullet, keeps the enemy count, and changes nothing else |
| Sim.ContactEffect | src/game.js:655-660 | the contact phase keeps the player consistent and ends the game exactly when health is gone, which needs an enemy present |
| Sim.PickupEffect | src/game.js:663-673 | the pickup phase keeps a living player consistent and alive |
| Sim.UncollectedLength | src/game.js:663-673 | the untouched power-ups are no more than the power-ups |
| Sim.Collide | src/game.js:645-674 | defines `collisions()`: the bullet phase, then the contact phase, which on a lethal hit ends the game and skips the pickups, then the pickup phase |
| Sim.CollideEffect | src/game.js:645-674 | collisions keep the record consistent and the enemy count; the score rises by exactly 10 per scoring bullet, which is at most 10 per removed bullet; the game stops exactly when health is gone, and then the killing enemy is still in the array, the best is at least the score and the power-ups are left as the bullet phase made them; otherwise the power-ups are exactly the bullet phase's ones the final player does not touch, in order |
| Sim.NextWave | src/game.js:732 | defines the wave check: an empty enemy array advances the wave by one and spawns it |
| Sim.Tick | src/game.js:732 | defines `update`: nothing while stopped or paused, otherwise prune, move, collide and the wave check |
| Sim.TickKeepsInv | src/game.js:732 | an update keeps the record consistent |
| Sim.TickScore | src/game.js:732 | the score never falls, and one update adds at most 10 per bullet in flight plus the one fired |
| Sim.TickWave | src/game.js:732 | the wave rises by exactly one exactly when a running update leaves no enemy after collisions, which is exactly when no enemy survives the pruning, so the wave advances on the update after the last kill; the array is then exactly the new wave |
| Sim.LethalTick | src/game.js:658 | the update in which the player dies does not advance the wave, leaves health at or below 0, the best at least the score and the submission armed |
| Sim.Frame | src/game.js:736 | defines `loop` for one timestamp: the clock bookkeeping, then the update with the clamped step |
| Sim.FrameAfterGameOver | src/game.js:736 | a frame of a finished game only stores the timestamp and advances the clock |
| Sim.FrameKeepsInv | src/game.js:736 | a frame keeps the record consistent |
| Sim.Frames | src/game.js:736 | the frames of the animation loop, one per timestamp in order, each with its own input, random draws and canvas size, keep the record consistent |
| Engine.Game.constructor | src/game.js:334-348 | the new record is `Initial` of the stored best and name |
| Engine.Game.SpawnWave | src/game.js:635 | the counted loop appends exactly `NewWave(n)` after the existing enemies, which are untouched |
| Engine.Game.StartGame | src/game.js:678-682 | the in-place reset gives `Sim.StartGame` of the old record, with a new player object |
| Engine.Game.ResetRound | src/game.js:679 | every field but the player is reset as `startGame` does, the enemies being exactly wave 1 |
| Engine.Game.ClearRound | src/game.js:679 | the plain field resets of `startGame`: running, unpaused, score 0, wave 1, clock 0, empty arrays, started, submission armed |
| Engine.Game.NewPlayer | src/game.js:679 | a fresh player object is created |
| Engine.Game.EndGame | src/game.js:683-717 | the in-place state part of `endGame` gives `Sim.EndGame` of the old record |
| Engine.Game.TogglePause | src/game.js:730 | the in-place toggle gives `Sim.TogglePause` and keeps the same player object |
| Engine.Game.ActionButton | src/game.js:780 | the button handler gives `Sim.ActionButton`; the player object is the old one or a new one |
| Engine.Game.SubmitScore | src/game.js:746-769 | the handler gives `Sim.SubmitScore`'s record and submission, and keeps the same player object |
| Engine.Game.PruneDead | src/game.js:732 | the reverse `splice` scan leaves exactly `Survivors` of the old enemies |
| Engine.Game.MoveBullets | src/game.js:732 | the reverse scan leaves exactly `AdvanceBullets` of the old bullets |
| Engine.Game.MoveParticles | src/game.js:732 | the reverse scan leaves exactly `AdvanceParticles` of the old particles |
| Engine.Game.MoveEnemies | src/game.js:524 | each enemy is replaced by its homing step toward the player |
| Engine.Game.MovePowerUps | src/game.js:581 | each power-up is replaced by its falling step |
| Engine.Game.MoveAll | src/game.js:732 | the player, its shot, bullets, enemies (toward the player's new position), power-ups and particles are moved as `Sim.Move` says |
| Engine.Game.MaybeDropPowerUp | src/game.js:620-624 | the power-ups grow by exactly `DropFor` of the draw |
| Engine.Game.HitEnemies | src/game.js:647-653 | the nested reverse scans with `splice` and `break` give `BulletPhase` |
| Engine.Game.HurtPlayer | src/game.js:655-660 | the reverse scan with the early return gives `ContactPass`: the player and whether the game ended |
| Engine.Game.CollectPowerUps | src/game.js:663-673 | the reverse scan with `splice` gives `PickupPass`: the power-ups kept and the player |
| Engine.Game.Collisions | src/game.js:645-674 | the three phases in place give `Sim.Collide`, including the early `endGame` |
| Engine.Game.Update | src/game.js:732 | the in-place update gives `Sim.Tick`, keeps the record consistent and keeps the same player object |
| Engine.Game.CheckWave | src/game.js:732 | an empty enemy array advances the wave by one and spawns it; otherwise nothing changes |
| Engine.Game.Loop | src/game.js:736 | a frame gives `Sim.Frame`, keeps the record consistent and keeps the same player object |
| Engine.Game.AdvanceClock | src/game.js:736 | the step is `FrameDt`; the timestamp is stored and the clock advances unless paused |
| Engine.Game.Run | src/game.js:736 | the animation loop over a sequence of timestamps, each frame with its own input and environment, gives `Sim.Frames` and keeps the same player object |

## Left out

- Rendering: every `draw`, `render` and `roundedRect`. They only produce output.
- `fitCanvas` is not modelled as code. It sets the canvas backing-store size from the client size and the device pixel ratio, at load and on every window resize. Its result is the `View` parameter: `View.canvasW` and `View.canvasH` are read by the new player and the power-up floor. A resize between frames is a change of `View` from one frame's `Env` to the next (`Sim.Frames`, `Engine.Game.Run`). The device-pixel-ratio arithmetic and its rounding are not modelled.
- Audio: `playSfx` and the audio pool. They are fire-and-forget side effects.
- The Firebase leaderboard: `submitScore` and `fetchTopScores`, with their timeout, retries and cache, and the leaderboard display. They are network I/O. `Sim.SubmitScore` returns the submission to send instead of sending it, and only the sort-and-truncate step is modelled (`Leaderboard.TopScores`).
- DOM and input wiring: the event listeners, `updateUI`, and the texts and focus changes in `startGame` and `endGame`. The input arrives as an `Input` snapshot. The `p` key and the game-over restart button call `togglePause` and `startGame`, which are modelled.
- Trigonometry and square roots: `Math.atan2`, `Math.cos`/`Math.sin`, `Math.hypot`, and the touch aim-ring logic. The aim vector, the movement direction and the homing direction (`Steer`) are given as inputs.
- Randomness: `Math.random` becomes the draws in `Env`. An enemy's kind, its sprite, its facing angle and a power-up's bob are only used for drawing and are not modelled.
- `spawnExplosion` is not modelled. It adds particles whose count, direction, speed and life are all random. Particles are otherwise moved and pruned as the code does.
- Mobile scaling is not modelled: `isMobileViewport` shrinks radii to 75% or 70%. The model uses the desktop radii.
- JavaScript numbers are modelled as exact reals, and as unbounded integers for score, health, hit points and the wave. Floating-point rounding is not modelled.
- Leaderboard.TopScores: states sortedness, the length, the sub-multiset relation and the cut at the score boundary. It does not state which of several entries with the same score are kept, which in the source depends on the order of the fetched data and the stability of `Array.prototype.sort`.
- The personal best is read from device storage in `endGame`. Here it is a field of the record that the constructor loads and `EndGame` updates. Storage failures and parsing are not modelled.
- Engine.Game.HitEnemies, Engine.Game.CollectPowerUps, Engine.Game.PruneDead, Engine.Game.MoveBullets, Engine.Game.MoveParticles: the reverse scans run on a local copy of the array, which is written back at the end. In the source the array itself is spliced during the scan. No other code runs during a scan, so the result is the same.
- The game entities other than the player are values inside sequences rather than objects. In the source each of them lives in exactly one array and is never shared, so no aliasing is lost.

=== FILE: collisions.dfy ===
/** The three collision phases of one tick, each stated as the pass the
    source's reverse-index loop makes, with closed forms proved about it. */
module Collisions {
  import opened Geometry
  import opened Config
  import opened Entities
  import opened Players
  import opened Drops

  // ---------------------------------------------------------------------
  // Bullets against enemies
  // ---------------------------------------------------------------------

  predicate BulletTouches(b: Bullet, e: Enemy)
  {
    Touch(b.x, b.y, b.r, e.x, e.y, e.r)
  }

  /** The highest index below n whose enemy the bullet touches, if any. */
  function LastHitBelow(b: Bullet, es: seq<Enemy>, n: nat): (hit: Option<nat>)
    requires n <= |es|
    ensures hit.Some? ==> hit.value < n
    decreases n
  {
    if n == 0 then None
    else if BulletTouches(b, es[n - 1]) then Some(n - 1)
    else LastHitBelow(b, es, n - 1)
  }

  /** The enemy the inner scan stops at: the highest-index enemy the bullet
      touches, if any. */
  function LastHit(b: Bullet, es: seq<Enemy>): (hit: Option<nat>)
    ensures hit.Some? ==> hit.value < |es|
  {
    LastHitBelow(b, es, |es|)
  }

  lemma {:induction false} LastHitBelowSpec(b: Bullet, es: seq<Enemy>, n: nat)
    requires n <= |es|
    ensures var hit := LastHitBelow(b, es, n);
      (hit.Some? ==> BulletTouches(b, es[hit.value])) &&
      (hit.Some? ==> forall k :: hit.value < k < n ==> !BulletTouches(b, es[k])) &&
      (hit.None? ==> forall k :: 0 <= k < n ==> !BulletTouches(b, es[k]))
    decreases n
  {
    if n > 0 && !BulletTouches(b, es[n - 1]) {
      LastHitBelowSpec(b, es, n - 1);
    }
  }

  /** LastHit finds a touched enemy with no touched enemy above it, and
      finds none exactly when the bullet touches no enemy. */
  lemma LastHitSpec(b: Bullet, es: seq<Enemy>)
    ensures var hit := LastHit(b, es);
      (hit.Some? ==> BulletTouches(b, es[hit.value])) &&
      (hit.Some? ==> forall k :: hit.value < k < |es| ==> !BulletTouches(b, es[k])) &&
      (hit.None? ==> forall k :: 0 <= k < |es| ==> !BulletTouches(b, es[k]))
  {
    LastHitBelowSpec(b, es, |es|);
  }

  /** The bullet touches no enemy. */
  predicate Misses(b: Bullet, es: seq<Enemy>)
  {
    forall k :: 0 <= k < |es| ==> !BulletTouches(b, es[k])
  }

  lemma MissesIsNoHit(b: Bullet, es: seq<Enemy>)
    ensures Misses(b, es) <==> LastHit(b, es).None?
  {
    LastHitSpec(b, es);
  }

  /** The inner loop: scan the enemies from the last one down and stop at
      the first one the bullet touches. */
  method FindHit(b: Bullet, es: seq<Enemy>) returns (hit: Option<nat>)
    ensures hit == LastHit(b, es)
  {
    hit := None;
    var j := |es|;
    while j > 0
      invariant 0 <= j <= |es|
      invariant hit.None?
      invariant LastHit(b, es) == LastHitBelow(b, es, j)
    {
      j := j - 1;
      if BulletTouches(b, es[j]) {
        hit := Some(j);
        break;
      }
    }
  }

  /** Two enemy sequences with the same centres and radii, index by index. */
  predicate SamePlaces(a: seq<Enemy>, c: seq<Enemy>)
  {
    |a| == |c| && forall j :: 0 <= j < |a| ==> a[j].x == c[j].x && a[j].y == c[j].y && a[j].r == c[j].r
  }

  /** Which enemy a bullet hits depends on places only, not on hit points
      or marks. */
  lemma LastHitSamePlaces(b: Bullet, a: seq<Enemy>, c: seq<Enemy>)
    requires SamePlaces(a, c)
    ensures LastHit(b, a) == LastHit(b, c)
  {
    LastHitBelowSamePlaces(b, a, c, |a|);
  }

  lemma {:induction false} LastHitBelowSamePlaces(b: Bullet, a: seq<Enemy>, c: seq<Enemy>, n: nat)
    requires SamePlaces(a, c) && n <= |a|
    ensures LastHitBelow(b, a, n) == LastHitBelow(b, c, n)
    decreases n
  {
    if n > 0 {
      assert BulletTouches(b, a[n - 1]) == BulletTouches(b, c[n - 1]);
      LastHitBelowSamePlaces(b, a, c, n - 1);
    }
  }

  /** What the bullet pass changes: the bullets kept so far (in order), the
      enemies, the score and the power-ups. */
  datatype HitState = HitState(kept: seq<Bullet>, enemies: seq<Enemy>, score: int, powerups: seq<PowerUp>)

  /** One bullet (index i): if it touches an enemy it is consumed, that
      enemy loses one hit point and flashes, and a hit that leaves it at or
      below zero marks it dead, scores and may drop a power-up. */
  function HitBullet(b: Bullet, i: nat, st: HitState, draws: nat -> DropDraw): HitState
  {
    if Misses(b, st.enemies) then st.(kept := [b] + st.kept)
    else
      MissesIsNoHit(b, st.enemies);
      var j := LastHit(b, st.enemies).value;
      var e := st.enemies[j].(hp := st.enemies[j].hp - 1, flash := HitFlash);
      if e.hp <= 0 then
        st.(enemies := st.enemies[j := e.(dead := true)], score := st.score + KillScore,
            powerups := st.powerups + DropFor(e.x, e.y, draws(i)))
      else st.(enemies := st.enemies[j := e])
  }

  /** The outer loop: bullets k-1, k-2, ..., 0 in that order. */
  function HitPass(bs: seq<Bullet>, k: nat, st: HitState, draws: nat -> DropDraw): HitState
    requires k <= |bs|
    decreases k
  {
    if k == 0 then st else HitPass(bs, k - 1, HitBullet(bs[k - 1], k - 1, st, draws), draws)
  }

  /** The bullets among bs[lo..] aimed (by the original places es0) at
      enemy j. */
  function HitsOn(bs: seq<Bullet>, lo: nat, es0: seq<Enemy>, j: nat): nat
    requires lo <= |bs|
    decreases |bs| - lo
  {
    if lo == |bs| then 0
    else (if LastHit(bs[lo], es0) == Some(j) then 1 else 0) + HitsOn(bs, lo + 1, es0, j)
  }

  /** Bullet i scores: its enemy is left at or below zero hit points once it
      and every later-index bullet aimed at that enemy have hit, which
      includes an enemy that was already dead. */
  predicate Awarded(bs: seq<Bullet>, i: nat, es0: seq<Enemy>)
    requires i < |bs|
  {
    match LastHit(bs[i], es0)
    case None => false
    case Some(j) => j < |es0| && es0[j].hp - HitsOn(bs, i + 1, es0, j) - 1 <= 0
  }

  /** How many of bullets 0..k-1 score. */
  function Awards(bs: seq<Bullet>, k: nat, es0: seq<Enemy>): nat
    requires k <= |bs|
  {
    if k == 0 then 0 else Awards(bs, k - 1, es0) + (if Awarded(bs, k - 1, es0) then 1 else 0)
  }

  /** Bullets 0..k-1 that touch no enemy, in order. */
  function Unhit(bs: seq<Bullet>, k: nat, es0: seq<Enemy>): seq<Bullet>
    requires k <= |bs|
  {
    if k == 0 then []
    else Unhit(bs, k - 1, es0) + (if Misses(bs[k - 1], es0) then [bs[k - 1]] else [])
  }

  /** The state of the pass once bullets k.. have been processed: places as
      in es0, and each enemy down by the hits those bullets dealt it. */
  predicate Tracks(bs: seq<Bullet>, k: nat, st: HitState, es0: seq<Enemy>)
  {
    k <= |bs| && SamePlaces(st.enemies, es0) &&
    forall j :: 0 <= j < |es0| ==> st.enemies[j].hp == es0[j].hp - HitsOn(bs, k, es0, j)
  }

  /** How a pass may change one enemy: its hit points never rise; if they
      did not change the enemy is untouched; if they fell it flashes and is
      dead exactly when it was dead before or is now at or below zero. */
  predicate HitEffectOn(s: Enemy, f: Enemy)
  {
    f.hp <= s.hp &&
    (f.hp == s.hp ==> f == s) &&
    (f.hp < s.hp ==> f.flash == HitFlash && f.dead == (s.dead || f.hp <= 0))
  }

  predicate HitEffect(s: seq<Enemy>, f: seq<Enemy>)
  {
    |s| == |f| && forall j :: 0 <= j < |s| ==> HitEffectOn(s[j], f[j])
  }

  lemma HitEffectTrans(a: seq<Enemy>, b: seq<Enemy>, c: seq<Enemy>)
    requires HitEffect(a, b) && HitEffect(b, c)
    ensures HitEffect(a, c)
  {
    forall j | 0 <= j < |a|
      ensures HitEffectOn(a[j], c[j])
    {
      assert HitEffectOn(a[j], b[j]) && HitEffectOn(b[j], c[j]);
    }
  }

  /** One bullet keeps the pass on track, and aims where it would have in
      the original places. */
  lemma HitBulletTracks(bs: seq<Bullet>, k: nat, st: HitState, es0: seq<Enemy>, draws: nat -> DropDraw)
    requires 0 < k && Tracks(bs, k, st, es0)
    ensures Tracks(bs, k - 1, HitBullet(bs[k - 1], k - 1, st, draws), es0)
    ensures LastHit(bs[k - 1], st.enemies) == LastHit(bs[k - 1], es0)
  {
    var b := bs[k - 1];
    LastHitSamePlaces(b, st.enemies, es0);
    MissesIsNoHit(b, st.enemies);
    var st' := HitBullet(b, k - 1, st, draws);
    forall j | 0 <= j < |es0|
      ensures st'.enemies[j].hp == es0[j].hp - HitsOn(bs, k - 1, es0, j)
    {
      assert HitsOn(bs, k - 1, es0, j) == (if LastHit(b, es0) == Some(j) then 1 else 0) + HitsOn(bs, k, es0, j);
    }
  }

  /** The effect of processing one bullet, in terms of the original places. */
  lemma HitBulletStep(bs: seq<Bullet>, k: nat, st: HitState, es0: seq<Enemy>, draws: nat -> DropDraw)
    requires 0 < k && Tracks(bs, k, st, es0)
    ensures var st' := HitBullet(bs[k - 1], k - 1, st, draws);
      Tracks(bs, k - 1, st', es0) &&
      st'.score == st.score + (if Awarded(bs, k - 1, es0) then KillScore else 0) &&
      st.powerups <= st'.powerups &&
      |st'.powerups| <= |st.powerups| + (if Awarded(bs, k - 1, es0) then 1 else 0) &&
      (Awarded(bs, k - 1, es0) ==>
         var e := es0[LastHit(bs[k - 1], es0).value];
         st'.powerups == st.powerups + DropFor(e.x, e.y, draws(k - 1))) &&
      (!Awarded(bs, k - 1, es0) ==> st'.powerups == st.powerups) &&
      HitEffect(st.enemies, st'.enemies)
  {
    HitBulletTracks(bs, k, st, es0, draws);
    MissesIsNoHit(bs[k - 1], st.enemies);
  }


  /** The outer loop keeps the places and deals each enemy one hit point
      per bullet aimed at it, changing enemies only as HitEffect allows. */
  lemma {:induction false} HitPassEnemies(bs: seq<Bullet>, k: nat, st: HitState, es0: seq<Enemy>, draws: nat -> DropDraw)
    requires Tracks(bs, k, st, es0)
    ensures Tracks(bs, 0, HitPass(bs, k, st, draws), es0)
    ensures HitEffect(st.enemies, HitPass(bs, k, st, draws).enemies)
    decreases k
  {
    if k == 0 {
      assert HitEffect(st.enemies, st.enemies);
    } else {
      var st' := HitBullet(bs[k - 1], k - 1, st, draws);
      HitBulletStep(bs, k, st, es0, draws);
      HitPassEnemies(bs, k - 1, st', es0, draws);
      HitEffectTrans(st.enemies, st'.enemies, HitPass(bs, k - 1, st', draws).enemies);
    }
  }

  /** One bullet keeps every place, and is kept exactly when it touches no
      enemy in the original places. */
  lemma HitBulletKept(b: Bullet, i: nat, st: HitState, es0: seq<Enemy>, draws: nat -> DropDraw)
    requires SamePlaces(st.enemies, es0)
    ensures SamePlaces(HitBullet(b, i, st, draws).enemies, es0)
    ensures HitBullet(b, i, st, draws).kept == if Misses(b, es0) then [b] + st.kept else st.kept
  {
    LastHitSamePlaces(b, st.enemies, es0);
    MissesIsNoHit(b, es0);
  }

  /** Bullets 0..k-1 that touch no enemy, put in front of acc the way the
      reverse loop collects them. */
  function UnhitOnto(bs: seq<Bullet>, k: nat, es0: seq<Enemy>, acc: seq<Bullet>): seq<Bullet>
    requires k <= |bs|
  {
    if k == 0 then acc
    else if Misses(bs[k - 1], es0) then UnhitOnto(bs, k - 1, es0, [bs[k - 1]] + acc)
    else UnhitOnto(bs, k - 1, es0, acc)
  }

  lemma {:induction false} UnhitOntoIsUnhit(bs: seq<Bullet>, k: nat, es0: seq<Enemy>, acc: seq<Bullet>)
    requires k <= |bs|
    ensures UnhitOnto(bs, k, es0, acc) == Unhit(bs, k, es0) + acc
  {
    if k > 0 {
      var b := bs[k - 1];
      if Misses(b, es0) {
        UnhitOntoIsUnhit(bs, k - 1, es0, [b] + acc);
        assert (Unhit(bs, k - 1, es0) + [b]) + acc == Unhit(bs, k - 1, es0) + ([b] + acc);
      } else {
        UnhitOntoIsUnhit(bs, k - 1, es0, acc);
        assert Unhit(bs, k, es0) == Unhit(bs, k - 1, es0) + [];
      }
    }
  }

  /** The outer loop keeps exactly the bullets that touch no enemy, in
      order. */
  lemma {:induction false} HitPassKept(bs: seq<Bullet>, k: nat, st: HitState, es0: seq<Enemy>, draws: nat -> DropDraw)
    requires k <= |bs| && SamePlaces(st.enemies, es0)
    ensures HitPass(bs, k, st, draws).kept == UnhitOnto(bs, k, es0, st.kept)
    decreases k
  {
    if k > 0 {
      var b := bs[k - 1];
      var st' := HitBullet(b, k - 1, st, draws);
      assert HitPass(bs, k, st, draws) == HitPass(bs, k - 1, st', draws);
      HitBulletKept(b, k - 1, st, es0, draws);
      HitPassKept(bs, k - 1, st', es0, draws);
    }
  }

  /** The outer loop adds ten points per scoring bullet and appends at most
      one power-up per scoring bullet. */
  lemma {:induction false} HitPassScore(bs: seq<Bullet>, k: nat, st: HitState, es0: seq<Enemy>, draws: nat -> DropDraw)
    requires Tracks(bs, k, st, es0)
    ensures var f := HitPass(bs, k, st, draws);
      f.score == st.score + KillScore * Awards(bs, k, es0) &&
      st.powerups <= f.powerups && |f.powerups| <= |st.powerups| + Awards(bs, k, es0)
    decreases k
  {
    if k > 0 {
      var st' := HitBullet(bs[k - 1], k - 1, st, draws);
      HitBulletStep(bs, k, st, es0, draws);
      HitPassScore(bs, k - 1, st', es0, draws);
    }
  }

  /** Each scoring bullet is a consumed bullet, so the score rises by at
      most ten per bullet removed. */
  lemma {:induction false} AwardsWithinConsumed(bs: seq<Bullet>, k: nat, es0: seq<Enemy>)
    requires k <= |bs|
    ensures Awards(bs, k, es0) + |Unhit(bs, k, es0)| <= k
  {
    if k > 0 {
      AwardsWithinConsumed(bs, k - 1, es0);
      MissesIsNoHit(bs[k - 1], es0);
    }
  }

  /** The bullet phase on the game's bullets, enemies, score and power-ups. */
  function BulletPhase(bs: seq<Bullet>, es: seq<Enemy>, score: int, us: seq<PowerUp>, draws: nat -> DropDraw): HitState
  {
    HitPass(bs, |bs|, HitState([], es, score, us), draws)
  }

  /** The bullet-enemy phase in closed form: the bullets kept are exactly
      those that touch no enemy, in order; enemy j loses one hit point per
      bullet aimed at it and keeps its place; an enemy no bullet hits is
      untouched and a hit one flashes and is dead exactly when it was dead
      or ends at or below zero; the score rises by ten per scoring hit and
      by at most ten per consumed bullet; power-ups are only appended, at
      most one per scoring hit. */
  lemma BulletPhaseEffect(bs: seq<Bullet>, es: seq<Enemy>, score: int, us: seq<PowerUp>, draws: nat -> DropDraw)
    ensures var f := BulletPhase(bs, es, score, us, draws);
      f.kept == Unhit(bs, |bs|, es) &&
      SamePlaces(f.enemies, es) &&
      (forall j :: 0 <= j < |es| ==> f.enemies[j].hp == es[j].hp - HitsOn(bs, 0, es, j)) &&
      (forall j :: 0 <= j < |es| && HitsOn(bs, 0, es, j) == 0 ==> f.enemies[j] == es[j]) &&
      (forall j :: 0 <= j < |es| && HitsOn(bs, 0, es, j) > 0 ==>
         f.enemies[j].flash == HitFlash && f.enemies[j].dead == (es[j].dead || f.enemies[j].hp <= 0)) &&
      f.score == score + KillScore * Awards(bs, |bs|, es) &&
      f.score - score <= KillScore * (|bs| - |f.kept|) &&
      us <= f.powerups && |f.powerups| - |us| <= Awards(bs, |bs|, es)
  {
    var st := HitState([], es, score, us);
    assert Tracks(bs, |bs|, st, es);
    HitPassEnemies(bs, |bs|, st, es, draws);
    HitPassKept(bs, |bs|, st, es, draws);
    UnhitOntoIsUnhit(bs, |bs|, es, []);
    HitPassScore(bs, |bs|, st, es, draws);
    AwardsWithinConsumed(bs, |bs|, es);
  }

  /** Bullets that touch no enemy are exactly the ones kept. */
  lemma {:induction false} UnhitMembers(bs: seq<Bullet>, k: nat, es0: seq<Enemy>)
    requires k <= |bs|
    ensures forall b :: b in Unhit(bs, k, es0) ==> Misses(b, es0)
    ensures forall i :: 0 <= i < k && Misses(bs[i], es0) ==> bs[i] in Unhit(bs, k, es0)
  {
    if k > 0 {
      UnhitMembers(bs, k - 1, es0);
    }
  }

  /** Dead enemies are pruned only at the start of the next update, so two
      bullets on an enemy with one hit point left, in the same pass, both
      score: the enemy ends at -1 and the score rises by twenty. */
  lemma DeadEnemyScoresAgain(b: Bullet, e: Enemy, score: int, us: seq<PowerUp>, draws: nat -> DropDraw)
    requires BulletTouches(b, e) && e.hp == 1
    ensures var f := BulletPhase([b, b], [e], score, us, draws);
      f.score == score + 2 * KillScore && f.kept == [] &&
      |f.enemies| == 1 && f.enemies[0].hp == -1 && f.enemies[0].dead
  {
    var st0 := HitState([], [e], score, us);
    assert BulletTouches(b, [e][0]);
    assert LastHit(b, [e]) == Some(0);
    var st1 := HitBullet(b, 1, st0, draws);
    assert st1.enemies == [e.(hp := 0, flash := HitFlash, dead := true)];
    LastHitSamePlaces(b, st1.enemies, [e]);
    var st2 := HitBullet(b, 0, st1, draws);
    assert HitPass([b, b], 2, st0, draws) == HitPass([b, b], 1, st1, draws);
    assert HitPass([b, b], 1, st1, draws) == HitPass([b, b], 0, st2, draws);
  }

  // ---------------------------------------------------------------------
  // Enemies against the player
  // ---------------------------------------------------------------------

  predicate EnemyTouchesPlayer(e: Enemy, p: PlayerState)
  {
    Touch(e.x, e.y, e.r, p.x, p.y, p.r)
  }

  /** The player after contact damage and the start of the grace period. */
  function Hurt(p: PlayerState): PlayerState
  {
    p.(health := p.health - ContactDamage, invT := InvulnerableTime)
  }

  /** The outcome of the contact phase: the player and whether the game
      ended. */
  datatype Contact = Contact(player: PlayerState, ended: bool)

  /** The loop over enemies k-1 down to 0: a touching enemy hurts the
      player when it is not invulnerable, and health at or below zero ends
      the game at once. */
  function ContactPass(es: seq<Enemy>, k: nat, p: PlayerState): Contact
    requires k <= |es|
    decreases k
  {
    if k == 0 then Contact(p, false)
    else if EnemyTouchesPlayer(es[k - 1], p) && p.invT <= 0.0 then
      var q := Hurt(p);
      if q.health <= 0 then Contact(q, true) else ContactPass(es, k - 1, q)
    else ContactPass(es, k - 1, p)
  }

  predicate TouchedBelow(es: seq<Enemy>, k: nat, p: PlayerState)
    requires k <= |es|
  {
    exists j :: 0 <= j < k && EnemyTouchesPlayer(es[j], p)
  }

  /** While invulnerable, contacts do nothing. */
  lemma {:induction false} ContactWhileInvulnerable(es: seq<Enemy>, k: nat, p: PlayerState)
    requires k <= |es| && p.invT > 0.0
    ensures ContactPass(es, k, p) == Contact(p, false)
  {
    if k > 0 {
      ContactWhileInvulnerable(es, k - 1, p);
    }
  }

  /** At most one damage event per pass: health drops by exactly the
      contact damage when some enemy touches a vulnerable player, after
      which the grace period starts; the game ends exactly when that leaves
      health at or below zero. */
  lemma {:induction false} ContactAtMostOnce(es: seq<Enemy>, k: nat, p: PlayerState)
    requires k <= |es|
    ensures ContactPass(es, k, p) ==
      if TouchedBelow(es, k, p) && p.invT <= 0.0 then Contact(Hurt(p), Hurt(p).health <= 0)
      else Contact(p, false)
  {
    if k > 0 {
      if EnemyTouchesPlayer(es[k - 1], p) && p.invT <= 0.0 {
        assert TouchedBelow(es, k, p);
        ContactWhileInvulnerable(es, k - 1, Hurt(p));
      } else {
        ContactAtMostOnce(es, k - 1, p);
        if TouchedBelow(es, k, p) {
          var j :| 0 <= j < k && EnemyTouchesPlayer(es[j], p);
          if p.invT <= 0.0 {
            assert j < k - 1;
            assert TouchedBelow(es, k - 1, p);
          }
        }
      }
    }
  }

  /** Health at 10 and one contact: health goes to -5 (it is not clamped at
      zero) and the game ends. */
  lemma LethalContactGoesNegative(e: Enemy, p: PlayerState)
    requires p.health == 10 && p.invT <= 0.0 && EnemyTouchesPlayer(e, p)
    ensures ContactPass([e], 1, p) == Contact(p.(health := -5, invT := InvulnerableTime), true)
  {
  }

  // ---------------------------------------------------------------------
  // The player against power-ups
  // ---------------------------------------------------------------------

  predicate Collects(p: PlayerState, u: PowerUp)
  {
    Touch(u.x, u.y, u.r, p.x, p.y, p.r)
  }

  function MinInt(a: int, b: int): int
  {
    if a <= b then a else b
  }

  /** The effect of one power-up: a buff sets its multiplier and restarts
      its full timer; a heart heals, capped at the maximum health. */
  function Collect(p: PlayerState, u: PowerUp): PlayerState
  {
    match u.kind
    case Speed => p.(speedMultiplier := SpeedMultiplier, speedTimer := SpeedDuration)
    case FireRate => p.(fireRateMultiplier := FireRateMultiplier, fireTimer := FireRateDuration)
    case Heart => p.(health := MinInt(MaxHealth, p.health + HeartHeal))
  }

  datatype PickState = PickState(kept: seq<PowerUp>, player: PlayerState)

  /** The loop over power-ups k-1 down to 0: a touched one is applied and
      removed, the others stay. */
  function PickupPass(us: seq<PowerUp>, k: nat, st: PickState): PickState
    requires k <= |us|
    decreases k
  {
    if k == 0 then st
    else
      var u := us[k - 1];
      if Collects(st.player, u) then PickupPass(us, k - 1, st.(player := Collect(st.player, u)))
      else PickupPass(us, k - 1, st.(kept := [u] + st.kept))
  }

  /** Power-ups 0..k-1 the player does not touch, in order. */
  function Uncollected(us: seq<PowerUp>, k: nat, p: PlayerState): seq<PowerUp>
    requires k <= |us|
  {
    if k == 0 then [] else Uncollected(us, k - 1, p) + (if Collects(p, us[k - 1]) then [] else [us[k - 1]])
  }

  /** How many of power-ups 0..k-1 of the given kind the player touches. */
  function Collected(us: seq<PowerUp>, k: nat, p: PlayerState, kind: PowerUpKind): nat
    requires k <= |us|
  {
    if k == 0 then 0
    else Collected(us, k - 1, p, kind) + (if Collects(p, us[k - 1]) && us[k - 1].kind == kind then 1 else 0)
  }

  /** The player after collecting the given numbers of hearts, speed and
      fire-rate power-ups. */
  function Buffed(p: PlayerState, hearts: nat, speeds: nat, fires: nat): PlayerState
  {
    p.(health := if hearts > 0 then MinInt(MaxHealth, p.health + HeartHeal * hearts) else p.health,
       speedMultiplier := if speeds > 0 then SpeedMultiplier else p.speedMultiplier,
       speedTimer := if speeds > 0 then SpeedDuration else p.speedTimer,
       fireRateMultiplier := if fires > 0 then FireRateMultiplier else p.fireRateMultiplier,
       fireTimer := if fires > 0 then FireRateDuration else p.fireTimer)
  }

  predicate SamePlace(p: PlayerState, q: PlayerState)
  {
    p.x == q.x && p.y == q.y && p.r == q.r
  }

  /** Power-ups 0..k-1 the player at p0 does not touch, put in front of acc
      the way the reverse loop collects them. */
  function UncollectedOnto(us: seq<PowerUp>, k: nat, p0: PlayerState, acc: seq<PowerUp>): seq<PowerUp>
    requires k <= |us|
  {
    if k == 0 then acc
    else if Collects(p0, us[k - 1]) then UncollectedOnto(us, k - 1, p0, acc)
    else UncollectedOnto(us, k - 1, p0, [us[k - 1]] + acc)
  }

  /** Which power-ups are left depends only on the player's place. */
  lemma {:induction false} UncollectedSamePlace(us: seq<PowerUp>, k: nat, p: PlayerState, q: PlayerState)
    requires k <= |us| && SamePlace(p, q)
    ensures Uncollected(us, k, p) == Uncollected(us, k, q)
  {
    if k > 0 {
      UncollectedSamePlace(us, k - 1, p, q);
    }
  }

  lemma {:induction false} UncollectedOntoIsUncollected(us: seq<PowerUp>, k: nat, p0: PlayerState, acc: seq<PowerUp>)
    requires k <= |us|
    ensures UncollectedOnto(us, k, p0, acc) == Uncollected(us, k, p0) + acc
  {
    if k > 0 {
      var u := us[k - 1];
      if Collects(p0, u) {
        UncollectedOntoIsUncollected(us, k - 1, p0, acc);
        assert Uncollected(us, k, p0) == Uncollected(us, k - 1, p0) + [];
      } else {
        UncollectedOntoIsUncollected(us, k - 1, p0, [u] + acc);
        assert (Uncollected(us, k - 1, p0) + [u]) + acc == Uncollected(us, k - 1, p0) + ([u] + acc);
      }
    }
  }

  /** The pickup loop keeps exactly the power-ups the player does not
      touch; collecting never moves the player. */
  lemma {:induction false} PickupPassKept(us: seq<PowerUp>, k: nat, st: PickState, p0: PlayerState)
    requires k <= |us| && SamePlace(st.player, p0)
    ensures PickupPass(us, k, st).kept == UncollectedOnto(us, k, p0, st.kept)
    ensures SamePlace(PickupPass(us, k, st).player, p0)
  {
    if k > 0 {
      var u := us[k - 1];
      if Collects(st.player, u) {
        PickupPassKept(us, k - 1, st.(player := Collect(st.player, u)), p0);
      } else {
        PickupPassKept(us, k - 1, st.(kept := [u] + st.kept), p0);
      }
    }
  }

  /** Collecting one more power-up on top of a batch already applied. */
  lemma BuffedStep(p: PlayerState, u: PowerUp, hearts: nat, speeds: nat, fires: nat)
    ensures Buffed(Collect(p, u), hearts, speeds, fires) ==
      Buffed(p, hearts + (if u.kind == Heart then 1 else 0), speeds + (if u.kind == Speed then 1 else 0),
             fires + (if u.kind == FireRate then 1 else 0))
  {
  }

  /** The pickup loop's effect on the player, in terms of the counts of each
      kind touched. */
  lemma {:induction false} PickupPassPlayer(us: seq<PowerUp>, k: nat, st: PickState, p0: PlayerState)
    requires k <= |us| && SamePlace(st.player, p0)
    ensures PickupPass(us, k, st).player ==
      Buffed(st.player, Collected(us, k, p0, Heart), Collected(us, k, p0, Speed), Collected(us, k, p0, FireRate))
  {
    if k > 0 {
      var u := us[k - 1];
      if Collects(st.player, u) {
        PickupPassPlayer(us, k - 1, st.(player := Collect(st.player, u)), p0);
        BuffedStep(st.player, u, Collected(us, k - 1, p0, Heart), Collected(us, k - 1, p0, Speed),
                   Collected(us, k - 1, p0, FireRate));
      } else {
        PickupPassPlayer(us, k - 1, st.(kept := [u] + st.kept), p0);
      }
    }
  }

  /** The pickup phase on the game's power-ups: the untouched ones stay in
      order; a buff collected any number of times is set to its configured
      multiplier with its full duration (a refresh, not a stack); hearts
      heal 25 each, capped at the maximum; nothing else about the player
      changes. A player at or below full health stays there. */
  lemma PickupPhaseEffect(us: seq<PowerUp>, p: PlayerState)
    ensures var f := PickupPass(us, |us|, PickState([], p));
      f.kept == Uncollected(us, |us|, p) &&
      f.player == Buffed(p, Collected(us, |us|, p, Heart), Collected(us, |us|, p, Speed), Collected(us, |us|, p, FireRate)) &&
      (p.health <= MaxHealth ==> f.player.health <= MaxHealth)
  {
    PickupPassKept(us, |us|, PickState([], p), p);
    UncollectedOntoIsUncollected(us, |us|, p, []);
    PickupPassPlayer(us, |us|, PickState([], p), p);
  }

}

=== FILE: config.dfy ===
/** The static gameplay constants of the desktop build. */
module Config {
  const MaxHealth: int := 100
  const BaseSpeed: real := 230.0
  const BaseReload: real := 0.14
  /** The player's radius at desktop scale. */
  const PlayerRadius: real := 12.0

  /** A kill drops a power-up when the roll is at most this value. */
  const DropChance: real := 0.10

  const SpeedMultiplier: real := 1.6
  const SpeedDuration: real := 8.0
  const FireRateMultiplier: real := 1.8
  const FireRateDuration: real := 8.0
  const HeartHeal: int := 25

  /** Contact damage and the invulnerability window that follows it. */
  const ContactDamage: int := 15
  const InvulnerableTime: real := 0.8

  const KillScore: int := 10
  const HitFlash: real := 0.2

  const BulletOffset: real := 18.0
  const BulletSpeed: real := 520.0
  const BulletRadius: real := 4.0
  const BulletLife: real := 1.2
  /** A bullet further than this outside the playfield is pruned. */
  const BulletMargin: real := 10.0

  const PowerUpRadius: real := 10.0
  const PowerUpFall: real := 28.0
  /** Power-ups rest this far above the bottom of the canvas. */
  const PowerUpFloor: real := 20.0

  /** Enemies appear this far outside a playfield edge. */
  const SpawnMargin: real := 20.0

  /** Particles keep this fraction of their velocity every update. */
  const ParticleDrag: real := 0.98

  /** The wave a new game starts at. */
  const FirstWave: nat := 1
  /** The largest simulated time step, in seconds. */
  const MaxStep: real := 0.033
  /** Multiplier applied to the movement speed while a touch is active. */
  const TouchSpeedBoost: real := 1.15
}

=== FILE: drops.dfy ===
/** The power-up drop policy: a drop roll against the overall chance, then a
    cumulative-weight choice of the power-up kind. */
module Drops {
  import opened Config
  import opened Entities

  /** The two random values a kill may consume: the drop roll and the value
      the kind choice scales by the total weight. */
  datatype DropDraw = DropDraw(roll: real, pick: real)

  /** The configured weights, in their declaration order. */
  const Weights: seq<(PowerUpKind, real)> := [(Speed, 1.0), (FireRate, 1.0), (Heart, 1.0)]

  /** The sum of the first n weights, accumulated left to right. */
  function Prefix(ws: seq<(PowerUpKind, real)>, n: nat): real
    requires n <= |ws|
  {
    if n == 0 then 0.0 else Prefix(ws, n - 1) + ws[n - 1].1
  }

  function TotalWeight(ws: seq<(PowerUpKind, real)>): real
  {
    Prefix(ws, |ws|)
  }

  /** The running sum up to and including index m reaches the target. */
  predicate Reached(ws: seq<(PowerUpKind, real)>, target: real, m: nat)
    requires m < |ws|
  {
    Prefix(ws, m + 1) >= target
  }

  /** The index weightedPick settles on for the scaled value `target`,
      searching from index k: the first index whose running prefix sum
      reaches the target, or the last index when none does. */
  function PickIndex(ws: seq<(PowerUpKind, real)>, target: real, k: nat): (i: nat)
    requires k < |ws|
    ensures k <= i < |ws|
    ensures Reached(ws, target, i) || i == |ws| - 1
    ensures forall m :: k <= m < i ==> !Reached(ws, target, m)
    decreases |ws| - k
  {
    if Reached(ws, target, k) || k == |ws| - 1 then k
    else PickIndex(ws, target, k + 1)
  }

  /** weightedPick: scale the random value by the total weight, then walk
      the entries subtracting each weight until the remainder is at most
      zero; the last key is the fallback. */
  method WeightedPick(ws: seq<(PowerUpKind, real)>, u: real) returns (key: PowerUpKind)
    requires |ws| > 0
    ensures key == ws[PickIndex(ws, u * TotalWeight(ws), 0)].0
    ensures exists i :: 0 <= i < |ws| && ws[i].0 == key
  {
    var sum := TotalWeight(ws);
    var r := u * sum;
    ghost var target := r;
    var i := 0;
    while i < |ws|
      invariant 0 <= i <= |ws|
      invariant r == target - Prefix(ws, i)
      invariant forall m :: 0 <= m < i ==> !Reached(ws, target, m)
    {
      r := r - ws[i].1;
      if r <= 0.0 {
        key := ws[i].0;
        assert Reached(ws, target, i);
        assert target == u * TotalWeight(ws);
        assert PickIndex(ws, target, 0) == i;
        return;
      }
      i := i + 1;
    }
    key := ws[|ws| - 1].0;
  }

  /** With the configured weights and a random value in [0, 1), the first
      third picks speed, the second fire rate, the rest a heart; the
      fallback is never needed. */
  lemma ConfiguredPick(u: real)
    requires 0.0 <= u < 1.0
    ensures Weights[PickIndex(Weights, u * TotalWeight(Weights), 0)].0 ==
      if u <= 1.0 / 3.0 then Speed else if u <= 2.0 / 3.0 then FireRate else Heart
  {
    assert Prefix(Weights, 1) == 1.0;
    assert Prefix(Weights, 2) == 2.0;
    assert Prefix(Weights, 3) == 3.0;
  }

  /** Weights with a positive total and a value in [0, 1): some prefix
      always reaches the target, so the fallback never fires. */
  lemma {:induction false} PickReaches(ws: seq<(PowerUpKind, real)>, u: real)
    requires |ws| > 0
    requires TotalWeight(ws) > 0.0 && 0.0 <= u < 1.0
    ensures Reached(ws, u * TotalWeight(ws), PickIndex(ws, u * TotalWeight(ws), 0))
  {
    assert u * TotalWeight(ws) <= TotalWeight(ws);
  }

  /** maybeDropPowerUp at (x, y): nothing when the roll exceeds the drop
      chance, otherwise one power-up of the picked kind, falling. */
  function DropFor(x: real, y: real, d: DropDraw): (drop: seq<PowerUp>)
    ensures |drop| <= 1
    ensures |drop| == 1 <==> d.roll <= DropChance
    ensures forall u :: u in drop ==> u.x == x && u.y == y && u.r == PowerUpRadius && u.vy == PowerUpFall
  {
    if d.roll > DropChance then []
    else [PowerUp(x, y, Weights[PickIndex(Weights, d.pick * TotalWeight(Weights), 0)].0, PowerUpRadius, PowerUpFall)]
  }
}

=== FILE: entities.dfy ===
/** The value entities of the simulation: bullets, enemies, power-ups and
    particles, with the per-update rule of each and the pruning of the
    collections that hold them. */
module Entities {
  import opened Geometry
  import opened Config

  datatype Option<+T> = None | Some(value: T)

  /** The canvas as the simulation sees it: the playfield is the client
      size (`w`, `h`); the backing-store size (`canvasW`, `canvasH`) places
      a new player and the power-up floor. */
  datatype View = View(w: real, h: real, canvasW: real, canvasH: real)

  /** Enemy homing: the unit vector pointing from the first point to the
      second (the cosine and sine of the angle between them). */
  type Steer = (real, real, real, real) -> (real, real)

  datatype Bullet = Bullet(x: real, y: real, vx: real, vy: real, r: real, life: real)

  datatype Enemy = Enemy(x: real, y: real, s: real, r: real, hp: int, flash: real, dead: bool)

  datatype PowerUpKind = Speed | FireRate | Heart

  datatype PowerUp = PowerUp(x: real, y: real, kind: PowerUpKind, r: real, vy: real)

  datatype Particle = Particle(x: real, y: real, vx: real, vy: real, life: real)

  /** A bullet fired from (x, y) along the unit aim vector (aimX, aimY). */
  function NewBullet(x: real, y: real, aimX: real, aimY: real): Bullet
  {
    Bullet(x + aimX * BulletOffset, y + aimY * BulletOffset,
           aimX * BulletSpeed, aimY * BulletSpeed, BulletRadius, BulletLife)
  }

  function BulletMoved(b: Bullet, dt: real): Bullet
  {
    b.(x := b.x + b.vx * dt, y := b.y + b.vy * dt, life := b.life - dt)
  }

  /** A bullet is pruned once it leaves the playfield by more than the
      margin or its lifetime has run out. */
  predicate BulletOff(b: Bullet, view: View)
  {
    b.x < -BulletMargin || b.x > view.w + BulletMargin ||
    b.y < -BulletMargin || b.y > view.h + BulletMargin || b.life <= 0.0
  }

  /** Every bullet moved by one step, then the ones that are off dropped. */
  function AdvanceBullets(bs: seq<Bullet>, dt: real, view: View): (r: seq<Bullet>)
    ensures |r| <= |bs|
  {
    if bs == [] then []
    else
      var b := BulletMoved(bs[0], dt);
      (if BulletOff(b, view) then [] else [b]) + AdvanceBullets(bs[1..], dt, view)
  }

  /** After the step no bullet in flight is off the playfield, and every
      bullet whose move leaves it on the playfield is still in flight. */
  lemma {:induction false} AdvanceBulletsSpec(bs: seq<Bullet>, dt: real, view: View)
    ensures forall b :: b in AdvanceBullets(bs, dt, view) <==>
      exists c :: c in bs && b == BulletMoved(c, dt) && !BulletOff(b, view)
  {
    if bs != [] {
      AdvanceBulletsSpec(bs[1..], dt, view);
      assert bs == [bs[0]] + bs[1..];
    }
  }

  /** Enemies home straight on (px, py); the hit flash decays while it is
      positive. */
  function EnemyMoved(e: Enemy, px: real, py: real, dt: real, steer: Steer): Enemy
  {
    var (cx, cy) := steer(e.x, e.y, px, py);
    e.(x := e.x + cx * e.s * dt, y := e.y + cy * e.s * dt,
       flash := if e.flash > 0.0 then e.flash - dt else e.flash)
  }

  function AdvanceEnemies(es: seq<Enemy>, px: real, py: real, dt: real, steer: Steer): (r: seq<Enemy>)
    ensures |r| == |es|
    ensures forall j :: 0 <= j < |es| ==>
      r[j].hp == es[j].hp && r[j].r == es[j].r && r[j].s == es[j].s && r[j].dead == es[j].dead
  {
    seq(|es|, j requires 0 <= j < |es| => EnemyMoved(es[j], px, py, dt, steer))
  }

  /** The enemies left after the ones marked dead are removed. */
  function Survivors(es: seq<Enemy>): (r: seq<Enemy>)
    ensures |r| <= |es|
  {
    if es == [] then []
    else (if es[0].dead then [] else [es[0]]) + Survivors(es[1..])
  }

  /** The survivors are exactly the enemies not marked dead. */
  lemma {:induction false} SurvivorsSpec(es: seq<Enemy>)
    ensures forall e :: e in Survivors(es) <==> e in es && !e.dead
  {
    if es != [] {
      SurvivorsSpec(es[1..]);
      assert es == [es[0]] + es[1..];
    }
  }

  /** A power-up falls until it reaches the floor above the bottom of the
      canvas, where it stops. */
  function PowerUpMoved(u: PowerUp, dt: real, canvasH: real): (v: PowerUp)
    ensures v.x == u.x && v.kind == u.kind && v.r == u.r
    ensures v.y <= canvasH - PowerUpFloor || v.y == u.y + u.vy * dt
    ensures u.y + u.vy * dt > canvasH - PowerUpFloor ==> v.y == canvasH - PowerUpFloor && v.vy == 0.0
    ensures u.vy == 0.0 && u.y <= canvasH - PowerUpFloor ==> v == u
  {
    var y := u.y + u.vy * dt;
    if y > canvasH - PowerUpFloor then u.(y := canvasH - PowerUpFloor, vy := 0.0)
    else u.(y := y)
  }

  function AdvancePowerUps(us: seq<PowerUp>, dt: real, canvasH: real): (r: seq<PowerUp>)
    ensures |r| == |us|
    ensures forall j :: 0 <= j < |us| ==> r[j].kind == us[j].kind && r[j].x == us[j].x
  {
    seq(|us|, j requires 0 <= j < |us| => PowerUpMoved(us[j], dt, canvasH))
  }

  function ParticleMoved(p: Particle, dt: real): Particle
  {
    p.(x := p.x + p.vx * dt, y := p.y + p.vy * dt,
       vx := p.vx * ParticleDrag, vy := p.vy * ParticleDrag, life := p.life - dt)
  }

  /** Every particle moved by one step, then the expired ones dropped. */
  function AdvanceParticles(ps: seq<Particle>, dt: real): (r: seq<Particle>)
    ensures |r| <= |ps|
  {
    if ps == [] then []
    else
      var p := ParticleMoved(ps[0], dt);
      (if p.life <= 0.0 then [] else [p]) + AdvanceParticles(ps[1..], dt)
  }

  /** The particles left are the moved ones whose life has not run out. */
  lemma {:induction false} AdvanceParticlesSpec(ps: seq<Particle>, dt: real)
    ensures forall p :: p in AdvanceParticles(ps, dt) <==>
      exists q :: q in ps && p == ParticleMoved(q, dt) && p.life > 0.0
  {
    if ps != [] {
      AdvanceParticlesSpec(ps[1..], dt);
      assert ps == [ps[0]] + ps[1..];
    }
  }
}

=== FILE: game.dfy ===
/** The mutable game record and the procedures that change it in place,
    each proved to perform the step of the value model in module Sim. */
module Engine {
  import opened Geometry
  import opened Config
  import opened Entities
  import opened Players
  import opened Spawner
  import opened Drops
  import opened Collisions
  import opened Leaderboard
  import opened Sim

  lemma AppendToEmpty<T>(a: seq<T>, b: seq<T>)
    requires a == []
    ensures a + b == b
  {
  }

  class Game {
    var running: bool
    var paused: bool
    var score: int
    var wave: nat
    var time: real
    var lastTs: real
    var player: Player?
    var bullets: seq<Bullet>
    var enemies: seq<Enemy>
    var powerups: seq<PowerUp>
    var particles: seq<Particle>
    var hasStartedOnce: bool
    var scoreSubmitted: bool
    /** The personal best and player name as stored on the device. */
    var best: int
    var playerName: string

    /** The record as a value. */
    function World(): World
      reads this, player
    {
      Sim.World(running, paused, score, wave, time, lastTs,
                if player == null then None else Some(player.State()),
                bullets, enemies, powerups, particles,
                hasStartedOnce, scoreSubmitted, best, playerName)
    }

    /** The record as the page loads it. */
    constructor (storedBest: int, storedName: string)
      ensures World() == Initial(storedBest, storedName)
    {
      running, paused, score, wave, time, lastTs := false, false, 0, 1, 0.0, 0.0;
      player := null;
      bullets, enemies, powerups, particles := [], [], [], [];
      hasStartedOnce, scoreSubmitted := false, false;
      best, playerName := storedBest, storedName;
    }

    /** `spawnWave(n)`: one enemy pushed per spawn draw. */
    method SpawnWave(n: nat, env: Env)
      modifies this`enemies
      ensures enemies == old(enemies) + NewWave(n, env.spawns, env.view)
    {
      var count := WaveEnemyCount(n);
      ghost var target := NewWave(n, env.spawns, env.view);
      for i := 0 to count
        invariant enemies == old(enemies) + target[..i]
      {
        enemies := enemies + [SpawnEnemy(n, env.spawns(i), env.view)];
        assert target[..i + 1] == target[..i] + [target[i]];
      }
      assert target[..count] == target;
    }

    method StartGame(env: Env)
      modifies this
      ensures World() == Sim.StartGame(old(World()), env)
      ensures fresh(player)
    {
      ResetRound(env);
      NewPlayer(env.view);
    }

    /** Everything `startGame()` resets apart from the player: no score, the
        first wave on an otherwise empty field, unpaused. */
    method ResetRound(env: Env)
      modifies this`running, this`paused, this`score, this`wave, this`time, this`lastTs
      modifies this`bullets, this`enemies, this`powerups, this`particles
      modifies this`hasStartedOnce, this`scoreSubmitted
      ensures running && !paused && score == 0 && wave == FirstWave && time == 0.0 && lastTs == 0.0
      ensures bullets == [] && enemies == NewWave(FirstWave, env.spawns, env.view)
      ensures powerups == [] && particles == []
      ensures hasStartedOnce && !scoreSubmitted
    {
      ClearRound();
      SpawnWave(wave, env);
      AppendToEmpty([], NewWave(FirstWave, env.spawns, env.view));
    }

    /** The plain field resets of `startGame()`, with no enemies yet. */
    method ClearRound()
      modifies this`running, this`paused, this`score, this`wave, this`time, this`lastTs
      modifies this`bullets, this`enemies, this`powerups, this`particles
      modifies this`hasStartedOnce, this`scoreSubmitted
      ensures running && !paused && score == 0 && wave == FirstWave && time == 0.0 && lastTs == 0.0
      ensures bullets == [] && enemies == [] && powerups == [] && particles == []
      ensures hasStartedOnce && !scoreSubmitted
    {
      running, paused, score, wave, time, lastTs := true, false, 0, FirstWave, 0.0, 0.0;
      bullets, enemies, powerups, particles := [], [], [], [];
      hasStartedOnce, scoreSubmitted := true, false;
    }

    /** A new player object for the game. */
    method NewPlayer(view: View)
      modifies this`player
      ensures player != null && fresh(player)
      ensures player.State() == FreshPlayer(view)
    {
      player := new Player(view);
    }

    /** `endGame()`, its state part: the game stops, the submit button is
        re-armed and the personal best is raised when beaten. */
    method EndGame()
      modifies this
      ensures World() == Sim.EndGame(old(World()))
      ensures player == old(player)
    {
      running := false;
      scoreSubmitted := false;
      var currentBest := best;
      var finalScore := score;
      if finalScore > currentBest {
        best := finalScore;
      }
    }

    method TogglePause()
      modifies this
      ensures World() == Sim.TogglePause(old(World()))
      ensures player == old(player)
    {
      if !running { return; }
      paused := !paused;
    }

    method ActionButton(env: Env)
      modifies this
      ensures World() == Sim.ActionButton(old(World()), env)
      ensures player == old(player) || fresh(player)
    {
      if !hasStartedOnce { StartGame(env); return; }
      if !running { StartGame(env); return; }
      TogglePause();
    }

    /** The submit button's handler; the submission sent, if any, is
        returned. */
    method SubmitScore(input: string) returns (sent: Option<Submitted>)
      modifies this
      ensures (World(), sent) == Sim.SubmitScore(old(World()), input)
      ensures player == old(player)
    {
      sent := None;
      if scoreSubmitted { return; }
      var name := Trim(input);
      if name != [] && score > 0 {
        scoreSubmitted := true;
        playerName := name;
        sent := Some(Submitted(playerName, score, wave));
      }
    }

    /** The reverse scan that removes the enemies marked dead. */
    method PruneDead()
      modifies this`enemies
      ensures enemies == Survivors(old(enemies))
    {
      var es := enemies;
      var i := |es|;
      while i > 0
        invariant 0 <= i <= |enemies|
        invariant es == enemies[..i] + Survivors(enemies[i..])
      {
        i := i - 1;
        assert enemies[i..][1..] == enemies[i + 1..];
        if es[i].dead {
          es := es[..i] + es[i + 1..];
        }
      }
      assert enemies[0..] == enemies;
      enemies := es;
    }

    /** The reverse scan that moves each bullet and removes the ones off the
        playfield. */
    method MoveBullets(dt: real, view: View)
      modifies this`bullets
      ensures bullets == AdvanceBullets(old(bullets), dt, view)
    {
      var bs := bullets;
      var i := |bs|;
      while i > 0
        invariant 0 <= i <= |bullets|
        invariant bs == bullets[..i] + AdvanceBullets(bullets[i..], dt, view)
      {
        i := i - 1;
        assert bullets[i..][1..] == bullets[i + 1..];
        bs := bs[i := BulletMoved(bs[i], dt)];
        if BulletOff(bs[i], view) {
          bs := bs[..i] + bs[i + 1..];
        }
      }
      assert bullets[0..] == bullets;
      bullets := bs;
    }

    /** The reverse scan that moves each particle and removes the expired
        ones. */
    method MoveParticles(dt: real)
      modifies this`particles
      ensures particles == AdvanceParticles(old(particles), dt)
    {
      var ps := particles;
      var i := |ps|;
      while i > 0
        invariant 0 <= i <= |particles|
        invariant ps == particles[..i] + AdvanceParticles(particles[i..], dt)
      {
        i := i - 1;
        assert particles[i..][1..] == particles[i + 1..];
        ps := ps[i := ParticleMoved(ps[i], dt)];
        if ps[i].life <= 0.0 {
          ps := ps[..i] + ps[i + 1..];
        }
      }
      assert particles[0..] == particles;
      particles := ps;
    }

    /** Every enemy homes on the player's current position. */
    method MoveEnemies(dt: real, steer: Steer)
      requires player != null
      modifies this`enemies
      ensures enemies == AdvanceEnemies(old(enemies), player.x, player.y, dt, steer)
    {
      ghost var es := enemies;
      for i := 0 to |enemies|
        invariant |enemies| == |es|
        invariant forall k :: 0 <= k < i ==> enemies[k] == EnemyMoved(es[k], player.x, player.y, dt, steer)
        invariant forall k :: i <= k < |es| ==> enemies[k] == es[k]
      {
        enemies := enemies[i := EnemyMoved(enemies[i], player.x, player.y, dt, steer)];
      }
      assert enemies == AdvanceEnemies(es, player.x, player.y, dt, steer);
    }

    /** Every power-up falls, stopping at the floor. */
    method MovePowerUps(dt: real, canvasH: real)
      modifies this`powerups
      ensures powerups == AdvancePowerUps(old(powerups), dt, canvasH)
    {
      ghost var us := powerups;
      for i := 0 to |powerups|
        invariant |powerups| == |us|
        invariant forall k :: 0 <= k < i ==> powerups[k] == PowerUpMoved(us[k], dt, canvasH)
        invariant forall k :: i <= k < |us| ==> powerups[k] == us[k]
      {
        var u := powerups[i];
        u := u.(y := u.y + u.vy * dt);
        if u.y > canvasH - PowerUpFloor {
          u := u.(y := canvasH - PowerUpFloor, vy := 0.0);
        }
        powerups := powerups[i := u];
      }
      assert powerups == AdvancePowerUps(us, dt, canvasH);
    }

    /** The movement part of `update`: the player, its shot, bullets,
        enemies, power-ups and particles, in that order. */
    method MoveAll(dt: real, input: Input, env: Env)
      requires player != null && PlayerOk(player.State())
      modifies this`bullets, this`enemies, this`powerups, this`particles, player
      ensures player.State() == PlayerStep(old(player.State()), dt, input, env.view)
      ensures bullets == AdvanceBullets(old(bullets) + Shots(ShotFrom(old(player.State()), dt, input, env.view)), dt, env.view)
      ensures enemies == AdvanceEnemies(old(enemies), player.x, player.y, dt, env.steer)
      ensures powerups == AdvancePowerUps(old(powerups), dt, env.view.canvasH)
      ensures particles == AdvanceParticles(old(particles), dt)
    {
      var shot := player.Update(dt, input, env.view);
      if shot.Some? {
        bullets := bullets + [shot.value];
      }
      assert bullets == old(bullets) + Shots(shot);
      MoveBullets(dt, env.view);
      MoveEnemies(dt, env.steer);
      MovePowerUps(dt, env.view.canvasH);
      MoveParticles(dt);
    }

    /** `maybeDropPowerUp(x, y)` with its two random values drawn. */
    method MaybeDropPowerUp(x: real, y: real, d: DropDraw)
      modifies this`powerups
      ensures powerups == old(powerups) + DropFor(x, y, d)
    {
      if d.roll > DropChance { return; }
      var kind := WeightedPick(Weights, d.pick);
      powerups := powerups + [PowerUp(x, y, kind, PowerUpRadius, PowerUpFall)];
    }

    /** The first phase of `collisions()`: bullets from the last, each
        against the enemies from the last, the first one touched taking the
        hit and the bullet. */
    method HitEnemies(drops: nat -> DropDraw)
      modifies this`bullets, this`enemies, this`score, this`powerups
      ensures HitState(bullets, enemies, score, powerups) ==
        BulletPhase(old(bullets), old(enemies), old(score), old(powerups), drops)
    {
      var bs, es, sc := bullets, enemies, score;
      ghost var target := BulletPhase(bullets, enemies, score, powerups, drops);
      var i := |bs|;
      assert bs[i..] == [];
      while i > 0
        invariant 0 <= i <= |bullets| && i <= |bs|
        invariant bs[..i] == bullets[..i]
        invariant HitPass(bullets, i, HitState(bs[i..], es, sc, powerups), drops) == target
        modifies this`powerups
      {
        ghost var st := HitState(bs[i..], es, sc, powerups);
        i := i - 1;
        var b := bs[i];
        assert b == bullets[i];
        var hit := FindHit(b, es);
        MissesIsNoHit(b, es);
        if hit.Some? {
          var j := hit.value;
          bs := bs[..i] + bs[i + 1..];
          es := es[j := es[j].(hp := es[j].hp - 1, flash := HitFlash)];
          if es[j].hp <= 0 {
            es := es[j := es[j].(dead := true)];
            sc := sc + KillScore;
            MaybeDropPowerUp(es[j].x, es[j].y, drops(i));
          }
        } else {
          assert bs[i..] == [b] + st.kept;
        }
        assert HitState(bs[i..], es, sc, powerups) == HitBullet(b, i, st, drops);
      }
      bullets, enemies, score := bs, es, sc;
    }

    /** The second phase: enemies from the last against the player. A
        contact outside the invulnerability window costs health and opens
        the window; the scan stops when the health is gone. */
    method HurtPlayer() returns (ended: bool)
      requires player != null
      modifies player
      ensures var c := ContactPass(enemies, |enemies|, old(player.State()));
        player.State() == c.player && ended == c.ended
    {
      var i := |enemies|;
      while i > 0
        invariant 0 <= i <= |enemies|
        invariant ContactPass(enemies, i, player.State()) == ContactPass(enemies, |enemies|, old(player.State()))
      {
        i := i - 1;
        var e := enemies[i];
        if Touch(e.x, e.y, e.r, player.x, player.y, player.r) {
          if player.invT <= 0.0 {
            player.health := player.health - ContactDamage;
            player.invT := InvulnerableTime;
            if player.health <= 0 { return true; }
          }
        }
      }
      return false;
    }

    /** The third phase: power-ups from the last against the player; each
        one touched applies its effect and is removed. */
    method CollectPowerUps()
      requires player != null
      modifies this`powerups, player
      ensures PickState(powerups, player.State()) ==
        PickupPass(old(powerups), |old(powerups)|, PickState([], old(player.State())))
    {
      var us := powerups;
      ghost var target := PickupPass(powerups, |powerups|, PickState([], player.State()));
      var i := |us|;
      assert us[i..] == [];
      while i > 0
        invariant 0 <= i <= |powerups| && i <= |us|
        invariant us[..i] == powerups[..i]
        invariant PickupPass(powerups, i, PickState(us[i..], player.State())) == target
        modifies player
      {
        i := i - 1;
        var u := us[i];
        assert u == powerups[i];
        if Touch(u.x, u.y, u.r, player.x, player.y, player.r) {
          match u.kind {
            case Speed =>
              player.speedMultiplier := SpeedMultiplier;
              player.speedTimer := SpeedDuration;
            case FireRate =>
              player.fireRateMultiplier := FireRateMultiplier;
              player.fireTimer := FireRateDuration;
            case Heart =>
              player.health := MinInt(MaxHealth, player.health + HeartHeal);
          }
          us := us[..i] + us[i + 1..];
        } else {
          assert us[i..] == [u] + us[i + 1..];
        }
      }
      powerups := us;
    }

    /** `collisions()`. */
    method Collisions(env: Env)
      requires player != null
      modifies this, player
      ensures World() == Collide(old(World()), env)
      ensures player == old(player)
    {
      HitEnemies(env.drops);
      var ended := HurtPlayer();
      if ended {
        EndGame();
        return;
      }
      CollectPowerUps();
    }

    /** `update(dt)`. */
    method Update(dt: real, input: Input, env: Env)
      requires Inv(World())
      modifies this, player
      ensures World() == Tick(old(World()), dt, input, env)
      ensures Inv(World())
      ensures player == old(player)
    {
      if !running || paused { return; }
      ghost var w0 := World();
      PruneDead();
      ghost var w1 := World();
      assert w1 == Prune(w0);
      ghost var p := player.State();
      MoveAll(dt, input, env);
      ghost var w2 := World();
      assert w2 == Move(w1, dt, input, env);
      Collisions(env);
      ghost var w3 := World();
      assert w3 == Collide(w2, env);
      CheckWave(env);
      TickKeepsInv(old(World()), dt, input, env);
    }

    /** A cleared field starts the next wave. */
    method CheckWave(env: Env)
      modifies this`wave, this`enemies
      ensures World() == NextWave(old(World()), env)
    {
      if |enemies| == 0 {
        wave := wave + 1;
        SpawnWave(wave, env);
        AppendToEmpty(old(enemies), NewWave(wave, env.spawns, env.view));
      }
    }

    /** `loop(ts)`, without the drawing. */
    method Loop(ts: real, input: Input, env: Env)
      requires Inv(World())
      modifies this, player
      ensures World() == Frame(old(World()), ts, input, env)
      ensures Inv(World())
      ensures player == old(player)
    {
      ghost var w0 := World();
      var dt := AdvanceClock(ts);
      assert World() == Clock(w0, ts, dt);
      Update(dt, input, env);
    }

    /** `requestAnimationFrame(loop)`: one frame per timestamp, in order,
        each with its own input and environment. */
    method Run(tss: seq<real>, ins: seq<Input>, envs: seq<Env>)
      requires Inv(World()) && |tss| == |ins| == |envs|
      modifies this, player
      ensures World() == Frames(old(World()), tss, ins, envs)
      ensures player == old(player)
    {
      ghost var w0 := World();
      for i := 0 to |tss|
        invariant player == old(player)
        invariant Inv(World())
        invariant World() == Frames(w0, tss[..i], ins[..i], envs[..i])
      {
        Loop(tss[i], ins[i], envs[i]);
        assert tss[..i + 1][..i] == tss[..i];
        assert ins[..i + 1][..i] == ins[..i];
        assert envs[..i + 1][..i] == envs[..i];
      }
      assert tss[..|tss|] == tss && ins[..|ins|] == ins && envs[..|envs|] == envs;
    }

    /** The frame's step, capped at `MaxStep` and zero on the first frame;
        the clock moves only while the game is not paused. */
    method AdvanceClock(ts: real) returns (dt: real)
      modifies this`lastTs, this`time
      ensures dt == FrameDt(ts, old(lastTs))
      ensures lastTs == ts && time == if paused then old(time) else old(time) + dt
    {
      dt := Min(MaxStep, (ts - (if lastTs != 0.0 then lastTs else ts)) / 1000.0);
      lastTs := ts;
      if !paused { time := time + dt; }
    }
  }
}

=== FILE: geometry.dfy ===
/** Small numeric helpers of the simulation: clamping and squared distance. */
module Geometry {

  function Min(a: real, b: real): (m: real)
    ensures m <= a && m <= b && (m == a || m == b)
  {
    if a <= b then a else b
  }

  function Max(a: real, b: real): (m: real)
    ensures m >= a && m >= b && (m == a || m == b)
  {
    if a >= b then a else b
  }

  /** `clamp(v, a, b) = max(a, min(b, v))`: the lower bound wins when the
      bounds are inverted. */
  function Clamp(v: real, lo: real, hi: real): (r: real)
    ensures lo <= r
    ensures lo <= hi ==> r <= hi
    ensures lo <= v <= hi ==> r == v
    ensures v < lo ==> r == lo
    ensures lo <= hi && hi < v ==> r == hi
    ensures hi < lo ==> r == lo
  {
    Max(lo, Min(hi, v))
  }

  /** Squared Euclidean distance: never negative, and zero for coinciding
      points. */
  function Dist2(x1: real, y1: real, x2: real, y2: real): (d: real)
    ensures d >= 0.0
    ensures x1 == x2 && y1 == y2 ==> d == 0.0
  {
    var dx := x1 - x2;
    var dy := y1 - y2;
    SquareNonNegative(dx);
    SquareNonNegative(dy);
    dx * dx + dy * dy
  }

  lemma SquareNonNegative(v: real)
    ensures v * v >= 0.0
    ensures v == 0.0 ==> v * v == 0.0
  {
    if v < 0.0 {
      assert v * v > 0.0;
    }
  }

  /** Two discs touch when the squared distance of their centres is at most
      the square of the sum of their radii. */
  predicate Touch(x1: real, y1: real, r1: real, x2: real, y2: real, r2: real)
  {
    var rs := r1 + r2;
    Dist2(x1, y1, x2, y2) <= rs * rs
  }

  /** Touching is symmetric, and two discs at the same centre always
      touch. */
  lemma TouchSymmetric(x1: real, y1: real, r1: real, x2: real, y2: real, r2: real)
    ensures Touch(x1, y1, r1, x2, y2, r2) == Touch(x2, y2, r2, x1, y1, r1)
    ensures x1 == x2 && y1 == y2 ==> Touch(x1, y1, r1, x2, y2, r2)
  {
    assert (x1 - x2) * (x1 - x2) == (x2 - x1) * (x2 - x1);
    assert (y1 - y2) * (y1 - y2) == (y2 - y1) * (y2 - y1);
    SquareNonNegative(r1 + r2);
  }
}

=== FILE: leaderboard.dfy ===
/** The decisions around a finished game's score: the personal best kept
    on the device, whether a name may be submitted, and the top-N list the
    leaderboard shows. */
module Leaderboard {

  /** The characters `String.prototype.trim` strips: white space and line
      terminators as ECMAScript defines them. */
  predicate IsJsSpace(c: char)
  {
    c == '\t' || c == '\n' || c == '\U{000B}' || c == '\U{000C}' || c == '\r' ||
    c == ' ' || c == '\U{00A0}' || c == '\U{1680}' ||
    ('\U{2000}' <= c <= '\U{200A}') ||
    c == '\U{2028}' || c == '\U{2029}' || c == '\U{202F}' || c == '\U{205F}' ||
    c == '\U{3000}' || c == '\U{FEFF}'
  }

  predicate AllSpace(s: string)
  {
    forall k :: 0 <= k < |s| ==> IsJsSpace(s[k])
  }

  /** The number of white-space characters that open `s`. */
  function Leading(s: string): (n: nat)
    ensures n <= |s|
    ensures forall k :: 0 <= k < n ==> IsJsSpace(s[k])
    ensures n < |s| ==> !IsJsSpace(s[n])
  {
    if s == [] || !IsJsSpace(s[0]) then 0 else 1 + Leading(s[1..])
  }

  /** The length of `s` once the white space that closes it is removed. */
  function Trailing(s: string): (m: nat)
    ensures m <= |s|
    ensures forall k :: m <= k < |s| ==> IsJsSpace(s[k])
    ensures m > 0 ==> !IsJsSpace(s[m - 1])
  {
    if s == [] || !IsJsSpace(s[|s| - 1]) then |s| else Trailing(s[..|s| - 1])
  }

  /** `s.trim()`: the name with the white space around it removed. It is
      empty exactly when the name is white space only, and otherwise starts
      and ends with a character that is not white space. */
  function Trim(s: string): (r: string)
    ensures |r| <= |s|
    ensures r == [] <==> AllSpace(s)
    ensures r != [] ==> !IsJsSpace(r[0]) && !IsJsSpace(r[|r| - 1])
  {
    var a := Leading(s);
    var b := Trailing(s);
    if a < b then s[a..b] else []
  }

  lemma {:induction false} LeadingOfPadded(p: string, t: string)
    requires AllSpace(p)
    requires t == [] || !IsJsSpace(t[0])
    ensures Leading(p + t) == |p|
  {
    if p != [] {
      assert (p + t)[1..] == p[1..] + t;
      LeadingOfPadded(p[1..], t);
    }
  }

  lemma {:induction false} TrailingOfPadded(t: string, q: string)
    requires AllSpace(q)
    requires t == [] || !IsJsSpace(t[|t| - 1])
    ensures Trailing(t + q) == |t|
  {
    if q != [] {
      assert (t + q)[..|t + q| - 1] == t + q[..|q| - 1];
      TrailingOfPadded(t, q[..|q| - 1]);
    }
  }

  /** Trimming recovers the name from any white-space padding around it. */
  lemma TrimPadded(p: string, m: string, q: string)
    requires AllSpace(p) && AllSpace(q)
    requires m != [] && !IsJsSpace(m[0]) && !IsJsSpace(m[|m| - 1])
    ensures Trim(p + m + q) == m
  {
    var s := p + m + q;
    assert s == p + (m + q);
    LeadingOfPadded(p, m + q);
    TrailingOfPadded(p + m, q);
    assert s[|p|..|p| + |m|] == m;
  }

  /** Trimming twice is trimming once. */
  lemma TrimIdempotent(s: string)
    ensures Trim(Trim(s)) == Trim(s)
  {
    var r := Trim(s);
    if r != [] {
      TrimPadded([], r, []);
      assert [] + r + [] == r;
    }
  }

  /** A name may be submitted once per game, when its trimmed form is not
      empty and the score is positive. */
  predicate MaySubmit(submitted: bool, name: string, score: int)
  {
    !submitted && Trim(name) != [] && score > 0
  }

  /** The line the game-over panel shows about the personal best. */
  datatype BestNotice = NewBest(score: int, was: int) | Standing(best: int) | Blank

  /** The personal best after a game that ended with `finalScore`, and the
      notice shown for it. */
  function PersonalBest(finalScore: int, currentBest: int): (r: (int, BestNotice))
    ensures r.0 >= finalScore && r.0 >= currentBest
    ensures r.0 == finalScore || r.0 == currentBest
    ensures r.1.NewBest? <==> finalScore > currentBest
    ensures r.1.NewBest? ==> r.1 == NewBest(finalScore, currentBest)
    ensures r.1.Standing? <==> 0 < currentBest && finalScore <= currentBest
    ensures r.1.Standing? ==> r.1.best == r.0
  {
    if finalScore > currentBest then (finalScore, NewBest(finalScore, currentBest))
    else if currentBest > 0 then (currentBest, Standing(currentBest))
    else (currentBest, Blank)
  }

  /** Replaying the same final score leaves the personal best where it is
      and announces no new record. */
  lemma PersonalBestSettles(finalScore: int, currentBest: int)
    ensures var b := PersonalBest(finalScore, currentBest).0;
      PersonalBest(finalScore, b).0 == b && !PersonalBest(finalScore, b).1.NewBest?
  {
  }

  datatype ScoreEntry = ScoreEntry(name: string, score: int, wave: int)

  predicate Descending(s: seq<ScoreEntry>)
  {
    forall k, l :: 0 <= k < l < |s| ==> s[k].score >= s[l].score
  }

  /** `scores.sort((a, b) => b.score - a.score)`: highest score first, by
      insertion. */
  method SortByScore(a: array<ScoreEntry>)
    modifies a
    ensures Descending(a[..])
    ensures multiset(a[..]) == multiset(old(a[..]))
  {
    var i := 0;
    while i < a.Length
      invariant 0 <= i <= a.Length
      invariant Descending(a[..i])
      invariant multiset(a[..]) == multiset(old(a[..]))
    {
      ghost var before := a[..];
      Insert(a, i);
      PrefixPermutedWhole(before, a[..], i + 1);
      i := i + 1;
    }
    assert a[..] == a[..a.Length];
  }

  /** t holds the first n entries of s in some order, and the rest of s as
      it was. */
  predicate PrefixPermuted(s: seq<ScoreEntry>, t: seq<ScoreEntry>, n: nat)
  {
    n <= |s| == |t| && multiset(t[..n]) == multiset(s[..n]) && t[n..] == s[n..]
  }

  /** Swapping two neighbours below n keeps the first n entries a
      permutation of the original ones. */
  lemma SwapInPrefix(s0: seq<ScoreEntry>, s: seq<ScoreEntry>, t: seq<ScoreEntry>, j: nat, n: nat)
    requires PrefixPermuted(s0, s, n) && 0 < j < n && t == s[j - 1 := s[j]][j := s[j - 1]]
    ensures PrefixPermuted(s0, t, n)
  {
    assert s[..n] == s[..j - 1] + [s[j - 1], s[j]] + s[j + 1..n];
    assert t[..n] == s[..j - 1] + [s[j], s[j - 1]] + s[j + 1..n];
  }

  /** Permuting a prefix permutes the whole list. */
  lemma PrefixPermutedWhole(s0: seq<ScoreEntry>, t: seq<ScoreEntry>, n: nat)
    requires PrefixPermuted(s0, t, n)
    ensures multiset(t) == multiset(s0)
  {
    assert t == t[..n] + t[n..];
    assert s0 == s0[..n] + s0[n..];
  }

  /** The first n entries are best first, except that entry j may score
      more than the ones before it. */
  predicate SortedBut(s: seq<ScoreEntry>, n: nat, j: nat)
  {
    j < n <= |s| && forall k, l :: 0 <= k < l < n && l != j ==> s[k].score >= s[l].score
  }

  /** A sorted prefix followed by one more entry: only that entry may be
      out of place. */
  lemma SinkStart(s: seq<ScoreEntry>, i: nat)
    requires i < |s| && Descending(s[..i])
    ensures SortedBut(s, i + 1, i)
  {
    forall k, l | 0 <= k < l < i + 1 && l != i
      ensures s[k].score >= s[l].score
    {
      assert s[..i][k] == s[k] && s[..i][l] == s[l];
    }
  }

  /** Swapping entry j with a lower-scoring predecessor moves the exception
      down by one. */
  lemma SinkStep(s: seq<ScoreEntry>, t: seq<ScoreEntry>, j: nat, n: nat)
    requires SortedBut(s, n, j) && 0 < j && s[j - 1].score < s[j].score
    requires t == s[j - 1 := s[j]][j := s[j - 1]]
    ensures SortedBut(t, n, j - 1)
  {
  }

  /** Once entry j is at the front or no better than its predecessor, the
      first n entries are best first. */
  lemma SinkDone(s: seq<ScoreEntry>, n: nat, j: nat)
    requires SortedBut(s, n, j) && (j == 0 || s[j - 1].score >= s[j].score)
    ensures Descending(s[..n])
  {
    forall k, l | 0 <= k < l < n
      ensures s[k].score >= s[l].score
    {
      if l == j && k < j - 1 {
        assert s[k].score >= s[j - 1].score;
      }
    }
  }

  /** Swaps `a[j]` with its predecessor. */
  method SwapDown(a: array<ScoreEntry>, j: nat)
    requires 0 < j < a.Length
    modifies a
    ensures a[..] == old(a[..])[j - 1 := old(a[j])][j := old(a[j - 1])]
  {
    a[j - 1], a[j] := a[j], a[j - 1];
  }

  /** Moves `a[i]` down past every lower-scoring entry of the sorted
      prefix `a[..i]`: the first i + 1 entries end sorted and permuted
      among themselves, and the rest of the array is untouched. */
  method Insert(a: array<ScoreEntry>, i: nat)
    requires i < a.Length && Descending(a[..i])
    modifies a
    ensures Descending(a[..i + 1])
    ensures PrefixPermuted(old(a[..]), a[..], i + 1)
  {
    ghost var a0 := a[..];
    SinkStart(a0, i);
    var j := i;
    while j > 0 && a[j - 1].score < a[j].score
      invariant 0 <= j <= i
      invariant SortedBut(a[..], i + 1, j)
      invariant PrefixPermuted(a0, a[..], i + 1)
    {
      ghost var before := a[..];
      SwapDown(a, j);
      SinkStep(before, a[..], j, i + 1);
      SwapInPrefix(a0, before, a[..], j, i + 1);
      j := j - 1;
    }
    ghost var s := a[..];
    assert j == 0 || s[j - 1].score >= s[j].score;
    SinkDone(s, i + 1, j);
  }

  /** What a prefix leaves out of a list is the rest of the list. */
  lemma LeftOut(s: seq<ScoreEntry>, n: nat)
    requires n <= |s|
    ensures multiset(s[..n]) <= multiset(s)
    ensures multiset(s) - multiset(s[..n]) == multiset(s[n..])
  {
    assert s == s[..n] + s[n..];
  }

  /** In a list sorted best first, a prefix holds entries at least as good
      as everything after it. */
  lemma PrefixIsTop(s: seq<ScoreEntry>, n: nat)
    requires Descending(s) && n <= |s|
    ensures multiset(s[..n]) <= multiset(s)
    ensures forall e, t :: e in multiset(s) - multiset(s[..n]) && t in s[..n] ==> e.score <= t.score
  {
    LeftOut(s, n);
    forall e, t | e in multiset(s[n..]) && t in s[..n]
      ensures e.score <= t.score
    {
      assert e in s[n..];
      var x :| n <= x < |s| && s[x] == e;
      var y :| 0 <= y < n && s[y] == t;
    }
  }

  /** The sort followed by `scores.splice(limit)`: the `limit` best entries
      (all of them when there are fewer), best first, and every entry left
      out scores no more than any entry kept. */
  method TopScores(scores: seq<ScoreEntry>, limit: nat) returns (top: seq<ScoreEntry>)
    ensures Descending(top)
    ensures |top| == if limit < |scores| then limit else |scores|
    ensures multiset(top) <= multiset(scores)
    ensures forall e, t :: e in multiset(scores) - multiset(top) && t in top ==> e.score <= t.score
  {
    var a := new ScoreEntry[|scores|](k requires 0 <= k < |scores| => scores[k]);
    assert a[..] == scores;
    SortByScore(a);
    var n := if limit < a.Length then limit else a.Length;
    top := a[..n];
    PrefixIsTop(a[..], n);
  }
}

=== FILE: players.dfy ===
/** The player: its timed buffs, reload cooldown, invulnerability window and
    movement inside the playfield. */
module Players {
  import opened Geometry
  import opened Config
  import opened Entities

  /** The input sampled for one update: whether a touch is active, the unit
      movement direction, the unit aim vector and whether fire is held. */
  datatype Input = Input(touch: bool, moveX: real, moveY: real, aimX: real, aimY: real, fire: bool)

  datatype PlayerState = PlayerState(
    x: real, y: real, r: real, speed: real, health: int,
    reload: real, reloadT: real, invT: real,
    speedMultiplier: real, speedTimer: real,
    fireRateMultiplier: real, fireTimer: real)

  /** A new player at the centre of the canvas, at full health, without
      buffs and ready to fire. */
  function FreshPlayer(view: View): (p: PlayerState)
    ensures PlayerOk(p) && p.health == MaxHealth
  {
    PlayerState(view.canvasW / 2.0, view.canvasH / 2.0, PlayerRadius, BaseSpeed, MaxHealth,
                BaseReload, 0.0, 0.0, 1.0, 0.0, 1.0, 0.0)
  }

  /** What holds of the player at every moment of a game: health never above
      the maximum, each multiplier either neutral or its configured value,
      and a multiplier whose timer has run out is neutral. */
  predicate PlayerOk(p: PlayerState)
  {
    p.health <= MaxHealth &&
    p.r == PlayerRadius && p.speed == BaseSpeed && p.reload == BaseReload &&
    (p.speedMultiplier == 1.0 || p.speedMultiplier == SpeedMultiplier) &&
    (p.fireRateMultiplier == 1.0 || p.fireRateMultiplier == FireRateMultiplier) &&
    (p.speedTimer <= 0.0 ==> p.speedMultiplier == 1.0) &&
    (p.fireTimer <= 0.0 ==> p.fireRateMultiplier == 1.0)
  }

  /** One buff: a running timer counts down by dt, and the multiplier returns
      to 1 when that makes the timer run out. */
  function DecayBuff(timer: real, mult: real, dt: real): (real, real)
  {
    if timer > 0.0 then
      var t := timer - dt;
      (t, if t <= 0.0 then 1.0 else mult)
    else (timer, mult)
  }

  /** A shot leaves on this update exactly when fire is held and the
      cooldown, once decremented, has run out. */
  predicate Fires(p: PlayerState, dt: real, input: Input)
  {
    input.fire && p.reloadT - dt <= 0.0
  }

  /** Base speed times the speed multiplier, boosted while a touch is
      active. */
  function CurrentSpeed(speed: real, speedMultiplier: real, touch: bool): real
  {
    var s := speed * speedMultiplier;
    if touch then s * TouchSpeedBoost else s
  }

  /** A coordinate moved along one component of the direction. */
  function Displaced(v: real, dir: real, currentSpeed: real, dt: real): real
  {
    v + dir * currentSpeed * dt
  }

  /** The player after one update. */
  function PlayerStep(p: PlayerState, dt: real, input: Input, view: View): (q: PlayerState)
    requires p.fireRateMultiplier != 0.0
    ensures q.health == p.health && q.r == p.r && q.speed == p.speed && q.reload == p.reload
    ensures p.speedTimer > 0.0 ==>
      q.speedTimer == p.speedTimer - dt &&
      q.speedMultiplier == (if q.speedTimer <= 0.0 then 1.0 else p.speedMultiplier)
    ensures p.speedTimer <= 0.0 ==> q.speedTimer == p.speedTimer && q.speedMultiplier == p.speedMultiplier
    ensures p.fireTimer > 0.0 ==>
      q.fireTimer == p.fireTimer - dt &&
      q.fireRateMultiplier == (if q.fireTimer <= 0.0 then 1.0 else p.fireRateMultiplier)
    ensures p.fireTimer <= 0.0 ==> q.fireTimer == p.fireTimer && q.fireRateMultiplier == p.fireRateMultiplier
    ensures var s := CurrentSpeed(p.speed, q.speedMultiplier, input.touch);
      q.x == Clamp(Displaced(p.x, input.moveX, s, dt), p.r, view.w - p.r) &&
      q.y == Clamp(Displaced(p.y, input.moveY, s, dt), p.r, view.h - p.r)
    ensures view.w >= 2.0 * p.r ==> p.r <= q.x <= view.w - p.r
    ensures view.h >= 2.0 * p.r ==> p.r <= q.y <= view.h - p.r
    ensures q.invT == if p.invT > 0.0 then p.invT - dt else p.invT
    ensures Fires(p, dt, input) ==> q.reloadT == p.reload / q.fireRateMultiplier
    ensures !Fires(p, dt, input) ==> q.reloadT == p.reloadT - dt
  {
    var (speedTimer, speedMultiplier) := DecayBuff(p.speedTimer, p.speedMultiplier, dt);
    var (fireTimer, fireRateMultiplier) := DecayBuff(p.fireTimer, p.fireRateMultiplier, dt);
    var currentSpeed := CurrentSpeed(p.speed, speedMultiplier, input.touch);
    var x := Clamp(Displaced(p.x, input.moveX, currentSpeed, dt), p.r, view.w - p.r);
    var y := Clamp(Displaced(p.y, input.moveY, currentSpeed, dt), p.r, view.h - p.r);
    var reloadT := p.reloadT - dt;
    var invT := if p.invT > 0.0 then p.invT - dt else p.invT;
    p.(x := x, y := y, reloadT := if Fires(p, dt, input) then p.reload / fireRateMultiplier else reloadT,
       invT := invT, speedMultiplier := speedMultiplier, speedTimer := speedTimer,
       fireRateMultiplier := fireRateMultiplier, fireTimer := fireTimer)
  }

  /** The bullet an update fires, from the player's new position. */
  function ShotFrom(p: PlayerState, dt: real, input: Input, view: View): (shot: Option<Bullet>)
    requires p.fireRateMultiplier != 0.0
    ensures shot.Some? <==> Fires(p, dt, input)
    ensures shot.Some? ==>
      var q := PlayerStep(p, dt, input, view);
      shot.value == NewBullet(q.x, q.y, input.aimX, input.aimY)
  {
    if Fires(p, dt, input) then
      var q := PlayerStep(p, dt, input, view);
      Some(NewBullet(q.x, q.y, input.aimX, input.aimY))
    else None
  }

  /** An update keeps the player consistent: buffs decay back to neutral,
      health is untouched. */
  lemma PlayerStepKeepsOk(p: PlayerState, dt: real, input: Input, view: View)
    requires PlayerOk(p)
    ensures PlayerOk(PlayerStep(p, dt, input, view))
  {
  }

  /** With the fire-rate buff active and fire held, shots are exactly
      `BaseReload / FireRateMultiplier` apart when each update is that long. */
  lemma BuffedCadence(p: PlayerState, in1: Input, view: View)
    requires PlayerOk(p) && p.fireTimer > 1.0 && p.fireRateMultiplier == FireRateMultiplier
    requires in1.fire && p.reloadT <= 0.0
    ensures var q := PlayerStep(p, 0.0, in1, view);
      q.reloadT == BaseReload / FireRateMultiplier &&
      ShotFrom(q, BaseReload / FireRateMultiplier, in1, view).Some?
  {
  }

  /** The player object: its fields are updated in place every frame. */
  class Player {
    var x: real
    var y: real
    var r: real
    var speed: real
    var health: int
    var reload: real
    var reloadT: real
    var invT: real
    var speedMultiplier: real
    var speedTimer: real
    var fireRateMultiplier: real
    var fireTimer: real

    function State(): PlayerState
      reads this
    {
      PlayerState(x, y, r, speed, health, reload, reloadT, invT,
                  speedMultiplier, speedTimer, fireRateMultiplier, fireTimer)
    }

    constructor (view: View)
      ensures State() == FreshPlayer(view)
    {
      x, y := view.canvasW / 2.0, view.canvasH / 2.0;
      r, speed, health := PlayerRadius, BaseSpeed, MaxHealth;
      reload, reloadT, invT := BaseReload, 0.0, 0.0;
      speedMultiplier, speedTimer := 1.0, 0.0;
      fireRateMultiplier, fireTimer := 1.0, 0.0;
    }

    /** Both buff timers count down; a buff whose timer runs out returns its
        multiplier to 1. */
    method DecayBuffs(dt: real)
      modifies this
      ensures (speedTimer, speedMultiplier) == DecayBuff(old(speedTimer), old(speedMultiplier), dt)
      ensures (fireTimer, fireRateMultiplier) == DecayBuff(old(fireTimer), old(fireRateMultiplier), dt)
      ensures x == old(x) && y == old(y) && r == old(r) && speed == old(speed) && health == old(health)
      ensures reload == old(reload) && reloadT == old(reloadT) && invT == old(invT)
    {
      if speedTimer > 0.0 {
        speedTimer := speedTimer - dt;
        if speedTimer <= 0.0 { speedMultiplier := 1.0; }
      }
      if fireTimer > 0.0 {
        fireTimer := fireTimer - dt;
        if fireTimer <= 0.0 { fireRateMultiplier := 1.0; }
      }
    }

    /** Buff decay, movement, cooldowns and firing, in the order of the
        source; the bullet fired, if any, is returned for the caller to add
        to the game's bullets. */
    method Update(dt: real, input: Input, view: View) returns (shot: Option<Bullet>)
      requires fireRateMultiplier != 0.0
      modifies this
      ensures State() == PlayerStep(old(State()), dt, input, view)
      ensures shot == ShotFrom(old(State()), dt, input, view)
    {
      DecayBuffs(dt);
      var currentSpeed := CurrentSpeed(speed, speedMultiplier, input.touch);
      x := Clamp(Displaced(x, input.moveX, currentSpeed, dt), r, view.w - r);
      y := Clamp(Displaced(y, input.moveY, currentSpeed, dt), r, view.h - r);
      reloadT := reloadT - dt;
      if invT > 0.0 { invT := invT - dt; }
      shot := None;
      if input.fire && reloadT <= 0.0 {
        reloadT := reload / fireRateMultiplier;
        shot := Some(NewBullet(x, y, input.aimX, input.aimY));
      }
    }
  }
}

/** The shot cadence over a run of updates: after a shot, the player's
    cooldown holds any further shot back for its full length. */
module Cooldown {
  import opened Config
  import opened Entities
  import opened Players

  /** The player after a run of updates, one per step length and input. */
  function Run(p: PlayerState, dts: seq<real>, ins: seq<Input>, view: View): (q: PlayerState)
    requires PlayerOk(p) && |dts| == |ins|
    ensures PlayerOk(q)
    decreases |dts|
  {
    if dts == [] then p
    else
      PlayerStepKeepsOk(p, dts[0], ins[0], view);
      Run(PlayerStep(p, dts[0], ins[0], view), dts[1..], ins[1..], view)
  }

  /** No update of the run fires a shot. */
  predicate Quiet(p: PlayerState, dts: seq<real>, ins: seq<Input>, view: View)
    requires PlayerOk(p) && |dts| == |ins|
    decreases |dts|
  {
    dts == [] ||
    (!Fires(p, dts[0], ins[0]) &&
     (PlayerStepKeepsOk(p, dts[0], ins[0], view);
      Quiet(PlayerStep(p, dts[0], ins[0], view), dts[1..], ins[1..], view)))
  }

  /** The total length of a run of updates. */
  function Sum(dts: seq<real>): real
  {
    if dts == [] then 0.0 else dts[0] + Sum(dts[1..])
  }

  lemma {:induction false} SumNonNegative(dts: seq<real>)
    requires forall i :: 0 <= i < |dts| ==> dts[i] >= 0.0
    ensures Sum(dts) >= 0.0
  {
    if dts != [] {
      SumNonNegative(dts[1..]);
    }
  }

  /** While the updates of a run add up to less than the remaining
      cooldown, none of them fires and the cooldown falls by their total. */
  lemma {:induction false} QuietWhileCooling(p: PlayerState, dts: seq<real>, ins: seq<Input>, view: View)
    requires PlayerOk(p) && |dts| == |ins|
    requires forall i :: 0 <= i < |dts| ==> dts[i] >= 0.0
    requires Sum(dts) < p.reloadT
    ensures Quiet(p, dts, ins, view)
    ensures Run(p, dts, ins, view).reloadT == p.reloadT - Sum(dts)
    decreases |dts|
  {
    if dts != [] {
      SumNonNegative(dts[1..]);
      PlayerStepKeepsOk(p, dts[0], ins[0], view);
      QuietWhileCooling(PlayerStep(p, dts[0], ins[0], view), dts[1..], ins[1..], view);
    }
  }

  /** After a shot the cooldown is the base reload divided by the fire-rate
      multiplier in force: no run of later updates shorter in total than
      that fires again, whatever the inputs. */
  lemma NoShotWithinCooldown(p: PlayerState, dt: real, input: Input, dts: seq<real>, ins: seq<Input>, view: View)
    requires PlayerOk(p) && Fires(p, dt, input)
    requires |dts| == |ins| && forall i :: 0 <= i < |dts| ==> dts[i] >= 0.0
    requires Sum(dts) < BaseReload / PlayerStep(p, dt, input, view).fireRateMultiplier
    ensures PlayerOk(PlayerStep(p, dt, input, view))
    ensures Quiet(PlayerStep(p, dt, input, view), dts, ins, view)
  {
    PlayerStepKeepsOk(p, dt, input, view);
    QuietWhileCooling(PlayerStep(p, dt, input, view), dts, ins, view);
  }
}

=== FILE: sim.dfy ===
/** The game record as a value and each step of the game as a function of
    it: one update of the simulation, one animation frame, starting and
    ending a game, pausing, and submitting the final score. */
module Sim {
  import opened Geometry
  import opened Config
  import opened Entities
  import opened Players
  import opened Spawner
  import opened Drops
  import opened Collisions
  import opened Leaderboard

  /** The game record, together with the two values the device keeps
      between games: the personal best and the last submitted name. */
  datatype World = World(
    running: bool, paused: bool, score: int, wave: nat, time: real, lastTs: real,
    player: Option<PlayerState>,
    bullets: seq<Bullet>, enemies: seq<Enemy>, powerups: seq<PowerUp>, particles: seq<Particle>,
    hasStartedOnce: bool, submitted: bool,
    best: int, playerName: string)

  /** Everything an update takes from outside the game record: the canvas,
      the enemies' homing directions and the random draws of the update. */
  datatype Env = Env(view: View, steer: Steer, drops: nat -> DropDraw, spawns: nat -> SpawnDraw)

  /** What holds between any two steps: a running game has a consistent,
      living player and is the only kind of game that can be paused, and
      the score is a whole number of kills. */
  predicate Inv(w: World)
  {
    w.wave >= 1 && w.score >= 0 && w.score % KillScore == 0 &&
    (w.paused ==> w.running) &&
    (w.running ==> w.hasStartedOnce && w.player.Some? && w.player.value.health > 0) &&
    (w.player.Some? ==> PlayerOk(w.player.value))
  }

  /** The record when the page loads. */
  function Initial(best: int, playerName: string): (w: World)
    ensures Inv(w) && !w.running && !w.hasStartedOnce && w.player.None?
  {
    World(false, false, 0, 1, 0.0, 0.0, None, [], [], [], [], false, false, best, playerName)
  }

  /** `startGame()`: a new player, no score, the first wave, and the
      submission re-armed; the personal best and name are kept. */
  function StartGame(w: World, env: Env): World
  {
    w.(running := true, paused := false, score := 0, wave := FirstWave, time := 0.0, lastTs := 0.0,
       bullets := [], enemies := NewWave(FirstWave, env.spawns, env.view), powerups := [], particles := [],
       player := Some(FreshPlayer(env.view)), hasStartedOnce := true, submitted := false)
  }

  /** A new game: a fresh player, an empty field apart from the first wave,
      no score, wave 1, unpaused and ready for one submission. */
  lemma StartGameFresh(w: World, env: Env)
    ensures var r := StartGame(w, env);
      Inv(r) && r.running && !r.paused && !r.submitted &&
      r.score == 0 && r.wave == 1 && r.time == 0.0 && r.lastTs == 0.0 &&
      r.bullets == [] && r.powerups == [] && r.particles == [] &&
      |r.enemies| == WaveEnemyCount(1) == 7 &&
      (forall j :: 0 <= j < |r.enemies| ==> r.enemies[j].hp == 1 && r.enemies[j].r == 12.0 && !r.enemies[j].dead) &&
      r.player == Some(FreshPlayer(env.view)) &&
      r.best == w.best && r.playerName == w.playerName
  {
    var r := StartGame(w, env);
    forall j | 0 <= j < |r.enemies|
      ensures r.enemies[j].hp == 1 && r.enemies[j].r == 12.0
    {
      assert r.enemies[j].hp == EnemyHp(1);
      assert r.enemies[j].r == EnemyRadius(1);
    }
  }

  /** The game stops, the score may be submitted again, and the personal
      best is raised to the final score when that is higher. */
  function EndGame(w: World): World
  {
    w.(running := false, submitted := false, best := PersonalBest(w.score, w.best).0)
  }

  /** It leaves `paused` alone, so it keeps the record consistent only when
      reached from an unpaused update, as it is. */
  lemma EndGameEffect(w: World)
    requires Inv(w) && !w.paused
    ensures var r := EndGame(w);
      Inv(r) && !r.running && !r.submitted &&
      r.best >= w.best && r.best >= w.score && (r.best == w.best || r.best == w.score) &&
      r.score == w.score && r.wave == w.wave && r.enemies == w.enemies
  {
  }

  function TogglePause(w: World): World
  {
    if !w.running then w else w.(paused := !w.paused)
  }

  /** Pausing does nothing to a stopped game, and toggling twice returns
      the game as it was. */
  lemma TogglePauseEffect(w: World)
    requires Inv(w)
    ensures !w.running ==> TogglePause(w) == w
    ensures w.running ==> TogglePause(w).paused == !w.paused && TogglePause(w).(paused := w.paused) == w
    ensures Inv(TogglePause(w))
    ensures TogglePause(TogglePause(w)) == w
  {
  }

  /** The start/pause button. */
  function ActionButton(w: World, env: Env): World
  {
    if !w.hasStartedOnce then StartGame(w, env)
    else if !w.running then StartGame(w, env)
    else TogglePause(w)
  }

  /** The button starts a game whenever none is running (the separate
      first-start test is subsumed) and otherwise pauses or resumes it. */
  lemma ActionButtonEffect(w: World, env: Env)
    requires Inv(w)
    ensures !w.running ==> ActionButton(w, env) == StartGame(w, env)
    ensures w.running ==> ActionButton(w, env) == w.(paused := !w.paused)
  {
  }

  /** The submit button: at most one submission per finished game, of the
      trimmed name, and only for a positive score. */
  datatype Submitted = Submitted(name: string, score: int, wave: nat)

  function SubmitScore(w: World, input: string): (World, Option<Submitted>)
  {
    if w.submitted then (w, None)
    else
      var name := Trim(input);
      if name != [] && w.score > 0 then
        (w.(submitted := true, playerName := name), Some(Submitted(name, w.score, w.wave)))
      else (w, None)
  }

  lemma SubmitScoreEffect(w: World, input: string)
    ensures var (r, sent) := SubmitScore(w, input);
      (sent.Some? <==> MaySubmit(w.submitted, input, w.score)) &&
      (sent.Some? ==> sent.value.score == w.score && sent.value.wave == w.wave &&
                      sent.value.name == Trim(input) == r.playerName && r.submitted) &&
      (sent.None? ==> r == w) &&
      r.(submitted := w.submitted, playerName := w.playerName) == w
  {
  }

  /** Once a score has been sent, every further press sends nothing until
      the next game ends or starts. */
  lemma SubmitAtMostOnce(w: World, first: string, second: string)
    requires SubmitScore(w, first).1.Some?
    ensures SubmitScore(SubmitScore(w, first).0, second).1.None?
  {
  }

  /** The pruning at the start of an update: enemies marked dead in the
      previous update are removed. */
  function Prune(w: World): World
  {
    w.(enemies := Survivors(w.enemies))
  }

  function Shots(shot: Option<Bullet>): (bs: seq<Bullet>)
    ensures |bs| <= 1
  {
    if shot.Some? then [shot.value] else []
  }

  /** The movement part of an update: the player moves first and may fire,
      then every bullet (the new one included) moves and the ones off the
      playfield are dropped, the enemies home on the player's new position,
      power-ups fall and expired particles are dropped. */
  function Move(w: World, dt: real, input: Input, env: Env): World
    requires w.player.Some? && w.player.value.fireRateMultiplier != 0.0
  {
    var p := w.player.value;
    var q := PlayerStep(p, dt, input, env.view);
    w.(player := Some(q),
       bullets := AdvanceBullets(w.bullets + Shots(ShotFrom(p, dt, input, env.view)), dt, env.view),
       enemies := AdvanceEnemies(w.enemies, q.x, q.y, dt, env.steer),
       powerups := AdvancePowerUps(w.powerups, dt, env.view.canvasH),
       particles := AdvanceParticles(w.particles, dt))
  }

  /** `collisions()`: bullets against enemies, then enemies against the
      player, which ends the game and skips the pickups on a lethal hit,
      then the player against power-ups. */
  function Collide(w: World, env: Env): World
    requires w.player.Some?
  {
    var hit := BulletPhase(w.bullets, w.enemies, w.score, w.powerups, env.drops);
    var c := ContactPass(hit.enemies, |hit.enemies|, w.player.value);
    var w1 := w.(bullets := hit.kept, enemies := hit.enemies, score := hit.score,
                 powerups := hit.powerups, player := Some(c.player));
    if c.ended then EndGame(w1)
    else
      var pick := PickupPass(w1.powerups, |w1.powerups|, PickState([], c.player));
      w1.(powerups := pick.kept, player := Some(pick.player))
  }

  /** The next wave is spawned once no enemy is left in the array. */
  function NextWave(w: World, env: Env): World
  {
    if |w.enemies| == 0 then w.(wave := w.wave + 1, enemies := NewWave(w.wave + 1, env.spawns, env.view))
    else w
  }

  /** `update(dt)`. */
  function Tick(w: World, dt: real, input: Input, env: Env): World
    requires Inv(w)
  {
    if !w.running || w.paused then w
    else NextWave(Collide(Move(Prune(w), dt, input, env), env), env)
  }

  /** The length of the step an animation frame simulates: the time since
      the previous frame in seconds, capped at 33 ms, and nothing on the
      first frame of a game. */
  function FrameDt(ts: real, lastTs: real): (dt: real)
    ensures dt <= MaxStep
    ensures lastTs == 0.0 ==> dt == 0.0
    ensures lastTs != 0.0 && lastTs <= ts ==> 0.0 <= dt
    ensures lastTs != 0.0 && ts - lastTs <= 1000.0 * MaxStep ==> dt == (ts - lastTs) / 1000.0
  {
    Min(MaxStep, (ts - (if lastTs != 0.0 then lastTs else ts)) / 1000.0)
  }

  /** The bookkeeping of `loop(ts)` before the update: the frame's
      timestamp is kept and the clock advances unless paused (also after
      the game has ended). */
  function Clock(w: World, ts: real, dt: real): (r: World)
    ensures Inv(w) ==> Inv(r)
    ensures r.(lastTs := w.lastTs, time := w.time) == w
  {
    w.(lastTs := ts, time := if w.paused then w.time else w.time + dt)
  }

  /** `loop(ts)`: the frame's step is measured, the clock advances and the
      game is updated. */
  function Frame(w: World, ts: real, input: Input, env: Env): World
    requires Inv(w)
  {
    var dt := FrameDt(ts, w.lastTs);
    Tick(Clock(w, ts, dt), dt, input, env)
  }

  /** The frames the page's animation loop runs, one per timestamp, input
      and environment, in order; each keeps the record consistent. Each
      frame has its own environment: fresh random draws and the canvas size
      at that frame, which a window resize may have changed. */
  function Frames(w: World, tss: seq<real>, ins: seq<Input>, envs: seq<Env>): (r: World)
    requires Inv(w) && |tss| == |ins| == |envs|
    ensures Inv(r)
    decreases |tss|
  {
    if tss == [] then w
    else
      var n := |tss| - 1;
      var v := Frames(w, tss[..n], ins[..n], envs[..n]);
      FrameKeepsInv(v, tss[n], ins[n], envs[n]);
      Frame(v, tss[n], ins[n], envs[n])
  }

  /** An update of a stopped or paused game changes nothing. */
  lemma TickIdle(w: World, dt: real, input: Input, env: Env)
    requires Inv(w)
    requires !w.running || w.paused
    ensures Tick(w, dt, input, env) == w
  {
  }

  lemma MoveEffect(w: World, dt: real, input: Input, env: Env)
    requires w.player.Some? && PlayerOk(w.player.value)
    ensures var r := Move(w, dt, input, env);
      r.player.Some? && PlayerOk(r.player.value) &&
      r.player.value.health == w.player.value.health &&
      |r.bullets| <= |w.bullets| + 1 && |r.enemies| == |w.enemies| &&
      r.(player := w.player, bullets := w.bullets, enemies := w.enemies,
         powerups := w.powerups, particles := w.particles) == w
  {
    PlayerStepKeepsOk(w.player.value, dt, input, env.view);
  }

  /** A contact pass leaves a consistent player, and ends the game exactly
      when the player's health is gone. */
  lemma ContactEffect(es: seq<Enemy>, p: PlayerState)
    requires PlayerOk(p) && p.health > 0
    ensures var c := ContactPass(es, |es|, p);
      PlayerOk(c.player) && (c.ended <==> c.player.health <= 0) &&
      (c.ended ==> |es| > 0)
  {
    ContactAtMostOnce(es, |es|, p);
  }

  lemma PickupEffect(us: seq<PowerUp>, p: PlayerState)
    requires PlayerOk(p) && p.health > 0
    ensures var f := PickupPass(us, |us|, PickState([], p));
      PlayerOk(f.player) && f.player.health > 0 && |f.kept| <= |us|
  {
    PickupPhaseEffect(us, p);
    var f := PickupPass(us, |us|, PickState([], p));
    assert |f.kept| <= |us| by {
      UncollectedLength(us, |us|, p);
    }
  }

  lemma {:induction false} UncollectedLength(us: seq<PowerUp>, k: nat, p: PlayerState)
    requires k <= |us|
    ensures |Uncollected(us, k, p)| <= k
  {
    if k > 0 {
      UncollectedLength(us, k - 1, p);
    }
  }

  lemma ScoreStep(s: int, a: nat)
    requires s >= 0 && s % KillScore == 0
    ensures (s + KillScore * a) % KillScore == 0
  {
  }

  /** The collision pass keeps the record consistent. The score changes
      only in the bullet phase, by ten per scoring hit, each a kill by a
      bullet that was removed; no enemy is removed. A lethal contact stops
      the game with the enemy that caused it still in the array, so the
      same update spawns no new wave, and skips the pickups. */
  lemma CollideEffect(w: World, env: Env)
    requires Inv(w) && w.running && !w.paused
    ensures var r := Collide(w, env);
      Inv(r) && r.wave == w.wave && r.hasStartedOnce &&
      w.score <= r.score <= w.score + KillScore * (|w.bullets| - |r.bullets|) &&
      (!r.running <==> r.player.value.health <= 0) &&
      (!r.running ==> |r.enemies| > 0 && r.best >= r.score) &&
      r.score == w.score + KillScore * Awards(w.bullets, |w.bullets|, w.enemies) &&
      |r.enemies| == |w.enemies| &&
      (!r.running ==> r.powerups == BulletPhase(w.bullets, w.enemies, w.score, w.powerups, env.drops).powerups) &&
      (r.running ==>
         var us := BulletPhase(w.bullets, w.enemies, w.score, w.powerups, env.drops).powerups;
         r.powerups == Uncollected(us, |us|, r.player.value))
  {
    var hit := BulletPhase(w.bullets, w.enemies, w.score, w.powerups, env.drops);
    BulletPhaseEffect(w.bullets, w.enemies, w.score, w.powerups, env.drops);
    ScoreStep(w.score, Awards(w.bullets, |w.bullets|, w.enemies));
    ContactEffect(hit.enemies, w.player.value);
    var c := ContactPass(hit.enemies, |hit.enemies|, w.player.value);
    if !c.ended {
      PickupEffect(hit.powerups, c.player);
      PickupPhaseEffect(hit.powerups, c.player);
      var f := PickupPass(hit.powerups, |hit.powerups|, PickState([], c.player));
      UncollectedSamePlace(hit.powerups, |hit.powerups|, c.player, f.player);
    }
  }

  /** An update keeps the record consistent. */
  lemma TickKeepsInv(w: World, dt: real, input: Input, env: Env)
    requires Inv(w)
    ensures Inv(Tick(w, dt, input, env))
  {
    if w.running && !w.paused {
      var m := Move(Prune(w), dt, input, env);
      MoveEffect(Prune(w), dt, input, env);
      CollideEffect(m, env);
    }
  }

  /** The score never falls, and an update adds at most one kill per bullet
      in flight, counting the one the player may fire during it. */
  lemma TickScore(w: World, dt: real, input: Input, env: Env)
    requires Inv(w)
    ensures var r := Tick(w, dt, input, env);
      w.score <= r.score <= w.score + KillScore * (|w.bullets| + 1)
  {
    if w.running && !w.paused {
      var m := Move(Prune(w), dt, input, env);
      MoveEffect(Prune(w), dt, input, env);
      CollideEffect(m, env);
    }
  }

  /** The wave advances by exactly one, and only when the collision pass
      leaves the enemy array empty; the new wave is then the whole array.
      Enemies killed in an update stay in the array until the next one
      prunes them, so the wave advances on the update after the last kill:
      exactly when no enemy survives the pruning. */
  lemma TickWave(w: World, dt: real, input: Input, env: Env)
    requires Inv(w)
    ensures var r := Tick(w, dt, input, env);
      (r.wave == w.wave || r.wave == w.wave + 1) &&
      (r.wave == w.wave + 1 <==>
         w.running && !w.paused && |Collide(Move(Prune(w), dt, input, env), env).enemies| == 0) &&
      (r.wave == w.wave + 1 <==> w.running && !w.paused && |Survivors(w.enemies)| == 0) &&
      (r.wave == w.wave + 1 ==> r.enemies == NewWave(w.wave + 1, env.spawns, env.view))
  {
    if w.running && !w.paused {
      var m := Move(Prune(w), dt, input, env);
      MoveEffect(Prune(w), dt, input, env);
      CollideEffect(m, env);
    }
  }

  /** The update in which the player dies ends the game without advancing
      the wave, and leaves the personal best at least the final score. */
  lemma LethalTick(w: World, dt: real, input: Input, env: Env)
    requires Inv(w) && w.running
    requires !Tick(w, dt, input, env).running
    ensures var r := Tick(w, dt, input, env);
      r.wave == w.wave && r.player.value.health <= 0 && r.best >= r.score && !r.submitted
  {
    var m := Move(Prune(w), dt, input, env);
    MoveEffect(Prune(w), dt, input, env);
    CollideEffect(m, env);
  }

  /** A frame of a finished game only moves the clock: the game time keeps
      running and nothing else but the frame timestamp changes. */
  lemma FrameAfterGameOver(w: World, ts: real, input: Input, env: Env)
    requires Inv(w) && !w.running
    ensures Frame(w, ts, input, env) == w.(lastTs := ts, time := w.time + FrameDt(ts, w.lastTs))
  {
  }

  /** A frame keeps the record consistent. */
  lemma FrameKeepsInv(w: World, ts: real, input: Input, env: Env)
    requires Inv(w)
    ensures Inv(Frame(w, ts, input, env))
  {
    var dt := FrameDt(ts, w.lastTs);
    TickKeepsInv(Clock(w, ts, dt), dt, input, env);
  }
}

=== FILE: spawner.dfy ===
/** The wave spawner: how many enemies wave n brings, and their hit points,
    radius, speed and starting place. */
module Spawner {
  import opened Geometry
  import opened Config
  import opened Entities

  /** The random values one new enemy consumes: the speed jitter, the edge
      choice and the place along that edge, each in [0, 1). */
  datatype SpawnDraw = SpawnDraw(jitter: real, edge: real, along: real)

  /** `6 + floor(n * 1.5)` enemies. */
  function WaveEnemyCount(n: nat): (count: nat)
    ensures count == 6 + (3 * n) / 2
  {
    var f := (n as real * 1.5).Floor;
    assert f == (3 * n) / 2 by { FloorHalf(3 * n); assert n as real * 1.5 == (3 * n) as real / 2.0; }
    6 + f
  }

  /** `1 + floor(n / 4)` hit points: at least one. */
  function EnemyHp(n: nat): (hp: int)
    ensures hp == 1 + n / 4 && hp >= 1
  {
    FloorQuarter(n);
    1 + (n as real / 4.0).Floor
  }

  /** `clamp(12 - floor(n / 4), 6, 12)`: shrinking by one every four waves
      from 12 down to 6. */
  function EnemyRadius(n: nat): (r: real)
    ensures 6.0 <= r <= 12.0
    ensures r == if n < 28 then (12 - n / 4) as real else 6.0
  {
    FloorQuarter(n);
    Clamp((12 - (n as real / 4.0).Floor) as real, 6.0, 12.0)
  }

  lemma FloorHalf(m: nat)
    ensures (m as real / 2.0).Floor == m / 2
  {
    var q, k := m / 2, m % 2;
    assert m == 2 * q + k;
    assert m as real / 2.0 == q as real + k as real / 2.0;
  }

  lemma FloorQuarter(n: nat)
    ensures (n as real / 4.0).Floor == n / 4
  {
    var q, k := n / 4, n % 4;
    assert n == 4 * q + k;
    assert n as real / 4.0 == q as real + k as real / 4.0;
  }

  /** On the line just outside one of the four playfield edges. */
  predicate OutsideEdge(e: Enemy, view: View)
  {
    e.x == -SpawnMargin || e.x == view.w + SpawnMargin || e.y == -SpawnMargin || e.y == view.h + SpawnMargin
  }

  /** The enemy built from one spawn draw: just outside the edge the draw
      picks (left, right, top, or bottom for any other value). */
  function SpawnEnemy(n: nat, d: SpawnDraw, view: View): (e: Enemy)
    ensures OutsideEdge(e, view)
  {
    var s := 60.0 + (n * 5) as real + d.jitter * 25.0;
    var e := (d.edge * 4.0).Floor;
    var (x, y) :=
      if e == 0 then (-SpawnMargin, d.along * view.h)
      else if e == 1 then (view.w + SpawnMargin, d.along * view.h)
      else if e == 2 then (d.along * view.w, -SpawnMargin)
      else (d.along * view.w, view.h + SpawnMargin);
    Enemy(x, y, s, EnemyRadius(n), EnemyHp(n), 0.0, false)
  }

  /** The enemies spawnWave(n) appends, the i-th built from draw i. */
  function NewWave(n: nat, draws: nat -> SpawnDraw, view: View): (wave: seq<Enemy>)
    ensures |wave| == WaveEnemyCount(n)
    ensures forall i :: 0 <= i < |wave| ==>
      wave[i].hp == EnemyHp(n) && wave[i].r == EnemyRadius(n) && wave[i].flash == 0.0 && !wave[i].dead
    ensures forall i :: 0 <= i < |wave| ==> OutsideEdge(wave[i], view)
    ensures forall i :: 0 <= i < |wave| ==> wave[i].s == 60.0 + (5 * n) as real + 25.0 * draws(i).jitter
    ensures forall i :: 0 <= i < |wave| && 0.0 <= draws(i).jitter < 1.0 ==>
      60.0 + (5 * n) as real <= wave[i].s < 85.0 + (5 * n) as real
  {
    var wave := seq(WaveEnemyCount(n), i requires 0 <= i => SpawnEnemy(n, draws(i), view));
    assert forall i :: 0 <= i < |wave| ==> wave[i] == SpawnEnemy(n, draws(i), view);
    wave
  }
}
